=== FILE: README.md ===
# Medication schedule and reminder model

A Dafny model of the scheduling core of a desktop medication tracker. It covers:

- **Schedule expansion** (`ScheduleEngine`). A schedule expands into its dose datetimes: every day from its start date to its end date, at each of its times of day. On top of that sit three queries: the next dose after now, today's doses, and the overdue doses.
- **Reminder events** (`ReminderEvents`, `Reminders`). Each dose is crossed with each enabled reminder setting of its schedule. The resulting event carries:
  - the reminder time, which is the dose minus the offset;
  - whether an intake log records that exact dose;
  - whether it is overdue.

  Upcoming, due and overdue views filter those events, and there is a next-reminder-per-medication query.
- **Minute-granular due check** (`ScheduleService`). Reminders pass a chain of gates:
  - the reminder is enabled;
  - its schedule is present and active;
  - today lies in the schedule's date window;
  - the weekday test passes;
  - then each schedule time is compared with now by hour and minute.
- **Validators** for schedules, reminder settings, intake logs and medications. Each is a fixed chain of guards; the first guard that fails decides the error.
- **Dosage text codec** (`DosageCodec`). It writes `amount|unit[|form]` and reads it back.

Encodings:

- A date is a proleptic-Gregorian day ordinal. Day 1 is 0001-01-01, a Monday.
- A time of day is a count of seconds since midnight, 0..86399.
- A datetime is `day * 86400 + seconds`. Reminder offsets are in minutes.
- The clock is an explicit `now` parameter, and one `now` is used for a whole call.
- Repositories are immutable sequences of records, read in storage order. The SQL queries carry no ORDER BY, so storage order is what they yield.
- `days_of_week` entries are either weekday indices or weekday names (`DayEntry`). This makes visible how the due check compares them.
- Sorting is an insertion sort on a key (`Seqs.SortBy`). It is proved sorted, a permutation of its input, and stable.

Module layout follows the source:

| module | file | covers |
|---|---|---|
| `Clock` | `clock.dfy` | date/time arithmetic, weekday, `%H:%M` |
| `Records` | `records.dfy` | schedule, reminder, intake log, medication records |
| `ScheduleEngine` | `schedule_engine.dfy` | schedule expansion and dose queries |
| `ReminderEvents` | `reminder_event.dfy` | the event record and `is_due` |
| `Reminders` | `reminders.dfy` | event generation and views |
| `ScheduleService` | `schedule_service.dfy` | minute-granular due-reminder check |
| `ScheduleValidator`, `ReminderValidator`, `IntakeLogValidator`, `MedicationValidator` | `*_validator.dfy` | the validators |
| `DosageCodec` | `dosage.dfy` | dosage text codec |
| `Text`, `Seqs`, `Wrappers` | helpers | whitespace stripping, filter, sort, min, option/result types |

The application treats `days_of_week` as weekday indices:

- models/schedule.py:18-19 documents them as 0 for Monday to 6 for Sunday;
- validators/schedule_validator.py:83-90 accepts only the indices 0..6;
- screens/add_schedule_view.py stores `int(d)`.

The due-reminder check in services/schedule_service.py:37-59 instead looks up today's abbreviated weekday name (`"Mon"`) in that list. It has no special case for an empty list, and daily schedules store `[]`. So no reminder of any schedule ever fires through that check. The model follows the code and records the discrepancy under Findings.

## Model

| member | source | states |
|---|---|---|
| Clock.CombineSplits | services/schedule_engine.py:36 | `datetime.combine(d, t)` splits back into the same date and time of day |
| Clock.CombineInjective | services/schedule_engine.py:34-38 | two (date, time) pairs give the same datetime only if they are equal, so expansion never repeats a dose across days |
| Clock.FormatHMSameMinute | services/schedule_service.py:66-69 | two datetimes print the same `%H:%M` exactly when they fall in the same minute of the day |
| Clock.MinuteDetermines | services/schedule_service.py:35-37 | datetimes in the same minute have the same date and the same minute of day, so every input `get_due_reminders` reads from now is fixed within a minute |
| Records.SchedulesOf | data/schedule_repository.py:132-147 | a schedule is returned exactly when it belongs to the medication, each as often as it is stored |
| Records.SchedulesOfKeepsOrder | data/schedule_repository.py:132-147 | the result keeps storage order: two stretches of the repository give their schedules one after the other |
| Records.RemindersOf | data/reminder_repository.py:178-196 | a reminder setting is returned exactly when it belongs to the schedule, each as often as it is stored |
| Records.LogsOf | data/intake_log_repository.py:157-169 | an intake log is returned exactly when it belongs to the medication, each as often as it is stored |
| ScheduleEngine.GenerateDoseEvents | services/schedule_engine.py:22-40 | no end date gives no doses; otherwise the result is sorted, every dose is a start..end day combined with a listed time, and every such combination is present |
| ScheduleEngine.ExpansionLength | services/schedule_engine.py:34-38 | the expansion has `DoseCount` doses: the number of days times the number of times of day when start <= end, and none otherwise |
| ScheduleEngine.ExpansionStrictlyIncreasing | services/schedule_engine.py:34-40 | with distinct times, the doses are strictly increasing, so no dose occurs twice |
| ScheduleEngine.ExpansionIgnoresRecurrence | services/schedule_engine.py:22-40 | frequency and days of week never affect the expansion |
| ScheduleEngine.ExpansionExample | tests/test_schedule_engine.py:27-39 | one day at 08:00 and 20:00 expands to exactly those two doses, in time order |
| ScheduleEngine.GetNextDose | services/schedule_engine.py:42-56 | None exactly when no dose of the medication's schedules lies after now; otherwise a dose after now that is no later than any other such dose |
| ScheduleEngine.DosesByMedication | services/schedule_engine.py:64-76 | a (medication, dose) pair is listed exactly when the medication has an id and the dose belongs to one of its schedules |
| ScheduleEngine.GetTodaySchedule | services/schedule_engine.py:58-78 | exactly the doses dated today of medications with an id, each as often as it is generated, sorted by dose time |
| ScheduleEngine.GetTodayScheduleStable | services/schedule_engine.py:64-78 | today's doses at any one time keep the order in which the loop produced them |
| ScheduleEngine.GetOverdueDoses | services/schedule_engine.py:80-99 | exactly the doses strictly before now, each as often as generated; intake logs are not consulted |
| ReminderEvents.TakenNeverDue | models/reminder_event.py:21-26 | a taken event is never due |
| ReminderEvents.DueIsMonotone | models/reminder_event.py:21-26 | once due, an event stays due at every later now |
| ReminderEvents.DueIgnoresDoseAndOverdue | models/reminder_event.py:21-26 | whether an event is due depends only on its reminder time and taken flag |
| Reminders.IsTaken | services/reminders.py:85-92 | a dose is taken exactly when some intake log of that medication records that exact scheduled time |
| Reminders.EventsForDose | services/reminders.py:52-79 | one event per enabled reminder setting, all for this dose, and none for a disabled setting |
| Reminders.EventsFollowReminderOrder | services/reminders.py:52-79 | within a dose, events follow the order of the reminder settings |
| Reminders.GenerateEventsExact | services/reminders.py:34-81 | an event is generated exactly when it comes from a schedule with settings, one of its doses and one of its enabled settings |
| Reminders.EventFlags | services/reminders.py:59-68 | every event is taken exactly when an intake log records its dose, and is overdue exactly when its dose is past and it is not taken |
| Reminders.ReminderPrecedesDose | services/reminders.py:56-58 | with non-negative offsets, no reminder comes after its dose |
| Reminders.EventCount | services/reminders.py:41-79 | the number of events is the sum, over schedules with settings, of doses times enabled settings |
| Reminders.EventsFollowScheduleOrder | services/reminders.py:41-51 | the events of two schedule lists in sequence are their events in sequence |
| Reminders.EventsFollowDoseOrder | services/reminders.py:51-52 | within a schedule, events follow the order of the doses |
| Reminders.ScheduleWithoutEnabledRemindersGivesNoEvents | services/reminders.py:44-54 | a schedule whose reminder settings are missing or all disabled contributes no event |
| Reminders.DisabledRemindersGiveNoEvents | services/reminders.py:44-54 | when every reminder setting is disabled there are no events |
| Reminders.GetUpcoming | services/reminders.py:96-103 | exactly the untaken events whose reminder time is after now, each as often as it is generated |
| Reminders.GetDue | services/reminders.py:105-113 | exactly the untaken events whose reminder time has come and whose dose has not passed, each as often as it is generated, so the poller notifies once per event; each is due at now |
| Reminders.GetOverdue | services/reminders.py:115-120 | exactly the overdue events, each as often as it is generated |
| Reminders.ViewsFollowScheduleOrder | services/reminders.py:96-120 | each view keeps the generation order: the view over two schedule lists is their views one after the other |
| Reminders.ViewsAreDisjoint | services/reminders.py:96-120 | at one now, no event is both upcoming and due, or both due and overdue |
| Reminders.GetNextForMedication | services/reminders.py:123-132 | None exactly when the medication has no upcoming event; otherwise an upcoming event of that medication with the least reminder time, the first one on ties |
| Reminders.DueBeforeDose | services/reminders.py:105-120 | an untaken dose whose reminder window contains now is due and not overdue |
| Reminders.OverdueAfterDose | tests/test_reminder.py:149-172 | an untaken dose that has passed is overdue, and neither due nor upcoming |
| Reminders.LoggedDoseIsTaken | tests/test_reminder.py:122-146 | a dose recorded in an intake log yields a taken event that is never overdue |
| ScheduleService.LookupSchedule | services/schedule_service.py:32 | the id lookup finds nothing exactly when no schedule has that id; with repeated ids the last one wins |
| ScheduleService.Firings | services/schedule_service.py:62-71 | one copy of the reminder per schedule time whose reminder minute equals now's minute of day |
| ScheduleService.FiringsExact | services/schedule_service.py:62-71 | the time loop yields the reminder exactly when one of the times, moved back by the offset, falls in now's minute of day |
| ScheduleService.ForReminderExact | services/schedule_service.py:40-71 | one reminder yields only copies of itself, and some exactly when it passes every gate and one of its times matches |
| ScheduleService.DueWithExact | services/schedule_service.py:40-73 | the reminder loop returns exactly the listed reminders that pass every gate and have a time matching now's minute |
| ScheduleService.GetDueReminders | services/schedule_service.py:23-73 | a reminder is returned exactly when it is enabled, its schedule is present and active, today is in the window, the days list holds today's name, and one of its times after the offset shows now's `%H:%M` |
| ScheduleService.GetDueRemindersCorrected | services/schedule_service.py:58-59 | exactly the reminders that pass the same gates and match now's minute, with the day test done on the weekday index and an empty list meaning every day |
| ScheduleService.FiresWhenEligible | services/schedule_service.py:40-71 | a reminder passing every gate fires once per matching schedule time; one failing any gate is dropped |
| ScheduleService.IndexWeekdaysNeverFire | services/schedule_service.py:37-59 | when every schedule stores weekday indices (or nothing), no reminder is ever returned |
| ScheduleService.DueFollowsReminderOrder | services/schedule_service.py:40-73 | output follows the order of the reminder list |
| ScheduleService.SameMinuteSameResult | services/schedule_service.py:35-69 | any two nows in the same minute give the same result |
| ScheduleService.MidnightWrap | services/schedule_service.py:66-69 | a 00:10 dose with a 20-minute offset fires when now shows 23:50 |
| ScheduleService.WeekdayFinding | services/schedule_service.py:37-59 | for a weekly schedule listing today's index, the check as written returns nothing and the corrected one returns the reminder |
| ScheduleValidator.DistinctCountNoDup | validators/schedule_validator.py:47-48 | the set of times is no larger than the list, and equally large exactly when no time repeats |
| ScheduleValidator.CheckTimes | validators/schedule_validator.py:32-48 | empty times and repeated times are rejected, and nothing else is |
| ScheduleValidator.CheckDates | validators/schedule_validator.py:51-62 | only a start after a present end date is rejected |
| ScheduleValidator.CheckFrequency | validators/schedule_validator.py:65-74 | only daily, weekly and custom are accepted |
| ScheduleValidator.FirstInvalidDay | validators/schedule_validator.py:86-90 | finds the first entry that is not an index 0..6, or reports there is none |
| ScheduleValidator.CheckDaysOfWeek | validators/schedule_validator.py:77-90 | a weekly schedule needs a non-empty list of indices 0..6; other frequencies pass |
| ScheduleValidator.Validate | validators/schedule_validator.py:16-29 | accepted exactly when well formed; each error is reported exactly when its check is the first to fail, in the order times, dates, frequency, days; an invalid frequency error carries the rejected value |
| ScheduleValidator.NonWeeklyIgnoresDays | validators/schedule_validator.py:80-81 | for a non-weekly schedule, days of week never change the verdict |
| ReminderValidator.Validate | validators/reminder_validator.py:11-63 | blank medication id, then blank schedule id, then negative offset, then offset above 1440 minutes, each reported exactly when it is the first to fail |
| ReminderValidator.OffsetBoundsAccepted | validators/reminder_validator.py:58-63 | offsets 0 and 1440 are accepted with non-blank ids |
| IntakeLogValidator.Validate | validators/intake_log_validator.py:16-115 | accepted exactly when well formed; otherwise the first failing guard, in source order, decides the error |
| IntakeLogValidator.ManualLogAccepted | validators/intake_log_validator.py:52-91 | a log with no scheduled time and amount zero, taken and created in the past, is accepted |
| MedicationValidator.Validate | validators/medication_validator.py:16-85 | accepted exactly when well formed; otherwise the first failing guard, in source order, decides the error |
| MedicationValidator.DefaultIdRejected | validators/medication_validator.py:72-73 | a medication with the default empty id is rejected |
| Text.Strip | validators/medication_validator.py:36 | `strip()` returns a stretch of the text, only whitespace lies before and after it, and it starts and ends with a non-space when non-empty |
| Clock.Weekday | services/schedule_service.py:37 | the weekday is 0..6, and day 1 (0001-01-01) is a Monday |
| Clock.WeekdayNext | services/schedule_service.py:37 | the weekday advances by one each day, Sunday wrapping to Monday, which with day 1 fixes the weekday of every date |
| Clock.FormatHM | services/schedule_service.py:35 | `%H:%M` is five characters with a colon in the middle |
| Seqs.SortBy | services/schedule_engine.py:78 | `sorted` with a key gives an ascending permutation of its input |
| Seqs.SortByStable | services/schedule_engine.py:78 | the sort is stable: the elements of any one key keep their input order, as `sorted` guarantees |
| Seqs.FirstMinBy | services/reminders.py:132 | `min` with a key picks an element of least key, and no earlier element has that key |
| Text.BlankIffAllSpace | validators/reminder_validator.py:30-33 | `strip()` leaves nothing exactly when every character is whitespace |
| DosageCodec.SplitJoin | models/dosage.py:17-36 | joining separator-free fields, as `__str__` does, and splitting gives the fields back |
| DosageCodec.JoinSplit | models/dosage.py:36 | splitting on the separator and joining back gives the text, so `split` loses nothing |
| DosageCodec.SplitCount | models/dosage.py:36-40 | the text splits into at least two fields exactly when it holds a separator |
| DosageCodec.Serialize | models/dosage.py:17-24 | the output always holds a separator, so it never reads back as "no dosage" |
| DosageCodec.Split | models/dosage.py:36 | `split` gives at least one field, and no field holds the separator |
| DosageCodec.Parse | models/dosage.py:28-45 | missing or empty text gives no dosage; non-empty text without a separator is an error; otherwise the amount is the first field, the unit the second, and the form the third when it exists and is non-empty, else no form |
| DosageCodec.ParseIgnoresLaterFields | models/dosage.py:36-42 | fields after the third do not change the result |
| DosageCodec.ParseEmptyThirdField | models/dosage.py:42 | an empty third field, last or followed by more fields, gives no form |
| DosageCodec.ParseSerialize | tests/test_dosage.py:38-45 | reading back a written dosage gives it back when its fields hold no separator and its form is absent or non-empty |
| DosageCodec.SerializeParse | models/dosage.py:28-45 | text of two fields, or three with a non-empty last, is read and written back unchanged, with the amount kept as text |
| DosageCodec.EmptyFormBecomesNone | models/dosage.py:20-24 | an empty form is written without it and read back as no form |
| DosageCodec.DosageExamplesWrite | tests/test_dosage.py:5-12 | 500 mg is written as the two fields joined by the separator, 2.5 ml tablet as the three fields |
| DosageCodec.DosageExamplesReadForm | tests/test_dosage.py:24-30 | the three fields 2.5, ml, capsule read back as a dosage with form capsule |
| DosageCodec.DosageExamplesReadPlain | tests/test_dosage.py:15-35 | the two fields 500, mg read back without a form, and empty or missing text reads as no dosage |

## Left out

- SQLite repositories and the database connection. The model has sequences of records in storage order instead.
- The poller thread, its start/stop flag and the 60-second sleep. One tick is one call of `Reminders.GetDue`, the only query the poller makes (services/scheduler_service.py:84). `ScheduleService.GetDueReminders` is modelled on its own.
- Notifications, the Flet screens, navigation and the analytics chart. These are I/O and UI.
- Reading the wall clock. `now` is a parameter, and one value serves a whole call, although event generation reads the clock once per event.
- Microseconds. Times are whole seconds.
- Datetime range overflow, naive versus timezone-aware datetimes, and the locale of the `%a` weekday name. The model assumes one time domain and English abbreviations.
- `isinstance` checks in the validators. The Dafny types already exclude the wrong types, so the messages for wrongly typed values cannot occur.
- Python float parsing and formatting of the dosage amount. The amount is an opaque text token.
- DosageCodec.SerializeParse: the round trip holds for the amount as text. The program parses the amount with `float()` and prints it back, so `500|mg` becomes `500.0|mg`. In the program the round trip holds only for amounts already written the way Python prints a float.
- Re-validation on every repository read. Each row read runs its validator again and raises on an invalid record (data/schedule_repository.py:243, data/reminder_repository.py:231, data/intake_log_repository.py:187, data/medication_repository.py:185). The model's queries take the records as given. For example, a dose logged before its scheduled time fails validators/intake_log_validator.py:76-79, so the program raises in `generate_events`, `get_due` and `get_today_schedule`, while the model returns a result.
- Intake amounts are exact reals, not floats.
- Identifier generation, `to_dict` / `from_dict`, appointments, the user profile, and the medication's unused schedule list.
- ScheduleEngine.GetOverdueDoses: the order of the result is not stated.
- DosageCodec.Serialize: its ensures states only that a separator appears. The exact layout is stated by `DosageCodec.ParseSerialize`, `DosageCodec.SerializeParse` and `DosageCodec.DosageExamplesWrite`.
- ScheduleService.GetDueReminders: its ensures states which reminders are returned, not how often or in what order. Multiplicity is stated by `ScheduleService.FiresWhenEligible`, and order by `ScheduleService.DueFollowsReminderOrder`.
- ScheduleService.GetDueRemindersCorrected: likewise states membership only. `ScheduleService.FiresWhenEligible` with `ByIndex` and `ScheduleService.DueFollowsReminderOrder` give multiplicity and order.

## Findings

| source | as written | input that shows it | evidently intended | confidence | as-written member | corrected member |
|---|---|---|---|---|---|---|
| services/schedule_service.py:37-59 | today's abbreviated weekday name (`"Mon"`) is looked up in `days_of_week`, which holds weekday indices | an active weekly schedule with `days_of_week = [today's index]`, one time equal to now's minute, and an enabled reminder with offset 0: nothing is returned | test today's weekday index, with an empty list allowing every day | not executed | ScheduleService.WeekdayFinding | ScheduleService.GetDueRemindersCorrected |

=== FILE: clock.dfy ===
/** Calendar arithmetic for the model.

    A date is its proleptic Gregorian ordinal, as Python's `date.toordinal()`
    numbers it (day 1 is 0001-01-01, a Monday). A time of day is the number of
    seconds since midnight. A datetime is `day * 86400 + seconds`, so
    `datetime.combine`, `.date()`, `.time()` and adding or subtracting a
    `timedelta` become integer arithmetic. Division and remainder below are
    Dafny's Euclidean ones, which for the positive divisors used here round
    towards minus infinity, as Python's datetime arithmetic does. */
module Clock {

  const SecondsPerDay: int := 86400
  const SecondsPerMinute: int := 60
  const MinutesPerDay: int := 1440

  /** A `datetime.time` value, at one-second precision. */
  type TimeOfDay = t: int | 0 <= t < 86400

  /** `datetime.combine(day, t)`. */
  function Combine(day: int, t: TimeOfDay): int
  {
    day * SecondsPerDay + t
  }

  /** `dt.date()`. */
  function DateOf(dt: int): int
  {
    dt / SecondsPerDay
  }

  /** `dt.time()`. */
  function TimeOf(dt: int): TimeOfDay
  {
    dt % SecondsPerDay
  }

  /** `dt - timedelta(minutes=m)`. */
  function MinusMinutes(dt: int, m: int): int
  {
    dt - m * SecondsPerMinute
  }

  /** Euclidean division by a day's seconds is determined by any
      quotient/remainder pair. */
  lemma DivModDay(x: int, q: int, r: int)
    requires 0 <= r < SecondsPerDay && x == q * SecondsPerDay + r
    ensures x / SecondsPerDay == q && x % SecondsPerDay == r
  {
  }

  lemma DivModMinute(x: int, q: int, r: int)
    requires 0 <= r < SecondsPerMinute && x == q * SecondsPerMinute + r
    ensures x / SecondsPerMinute == q && x % SecondsPerMinute == r
  {
  }

  /** `combine` and `date()`/`time()` are mutually inverse. */
  lemma CombineSplits(day: int, t: TimeOfDay)
    ensures DateOf(Combine(day, t)) == day
    ensures TimeOf(Combine(day, t)) == t
  {
    DivModDay(Combine(day, t), day, t);
  }

  lemma SplitCombines(dt: int)
    ensures Combine(DateOf(dt), TimeOf(dt)) == dt
  {
  }

  /** Different (date, time) pairs give different datetimes. */
  lemma CombineInjective(d1: int, t1: TimeOfDay, d2: int, t2: TimeOfDay)
    ensures Combine(d1, t1) == Combine(d2, t2) <==> d1 == d2 && t1 == t2
  {
    CombineSplits(d1, t1);
    CombineSplits(d2, t2);
  }

  /** `date.weekday()`: 0 is Monday and 6 is Sunday; day 1 is a Monday. */
  function Weekday(day: int): (w: int)
    ensures 0 <= w < 7
    ensures day == 1 ==> w == 0
  {
    (day + 6) % 7
  }

  /** The weekday advances by one each day, wrapping from Sunday to Monday;
      with `Weekday(1) == 0` this fixes the weekday of every date. */
  lemma WeekdayNext(day: int)
    ensures Weekday(day + 1) == (Weekday(day) + 1) % 7
  {
  }

  /** `strftime("%a")` in the C locale. */
  function DayAbbrev(w: int): string
    requires 0 <= w < 7
  {
    ["Mon", "Tue", "Wed", "Thu", "Fri", "Sat", "Sun"][w]
  }

  /** Minutes since midnight of `dt`: the part of `dt` that `%H:%M` shows. */
  function MinuteOfDay(dt: int): (m: int)
    ensures 0 <= m < MinutesPerDay
  {
    TimeOf(dt) / SecondsPerMinute
  }

  function DigitChar(d: int): char
    requires 0 <= d < 10
  {
    ('0' as int + d) as char
  }

  /** `%02d`. */
  function TwoDigits(n: int): string
    requires 0 <= n < 100
  {
    [DigitChar(n / 10), DigitChar(n % 10)]
  }

  /** `dt.strftime("%H:%M")`. */
  function FormatHM(dt: int): (s: string)
    ensures |s| == 5 && s[2] == ':'
  {
    var m := MinuteOfDay(dt);
    TwoDigits(m / 60) + ":" + TwoDigits(m % 60)
  }

  lemma {:induction false} TwoDigitsInjective(a: int, b: int)
    requires 0 <= a < 100 && 0 <= b < 100
    requires TwoDigits(a) == TwoDigits(b)
    ensures a == b
  {
    assert TwoDigits(a)[0] == TwoDigits(b)[0];
    assert TwoDigits(a)[1] == TwoDigits(b)[1];
    assert a / 10 == b / 10 && a % 10 == b % 10;
  }

  /** Two datetimes print the same `%H:%M` exactly when they fall in the
      same minute of their respective days. */
  lemma {:induction false} FormatHMSameMinute(a: int, b: int)
    ensures FormatHM(a) == FormatHM(b) <==> MinuteOfDay(a) == MinuteOfDay(b)
  {
    var ma, mb := MinuteOfDay(a), MinuteOfDay(b);
    if FormatHM(a) == FormatHM(b) {
      assert FormatHM(a)[..2] == FormatHM(b)[..2];
      assert FormatHM(a)[3..] == FormatHM(b)[3..];
      assert FormatHM(a)[..2] == TwoDigits(ma / 60);
      assert FormatHM(b)[..2] == TwoDigits(mb / 60);
      assert FormatHM(a)[3..] == TwoDigits(ma % 60);
      assert FormatHM(b)[3..] == TwoDigits(mb % 60);
      TwoDigitsInjective(ma / 60, mb / 60);
      TwoDigitsInjective(ma % 60, mb % 60);
    }
  }

  /** The date and the minute of day of `dt` depend only on the minute
      `dt / 60` that contains it. */
  lemma {:induction false} MinuteDetermines(dt: int)
    ensures DateOf(dt) == (dt / SecondsPerMinute) / MinutesPerDay
    ensures MinuteOfDay(dt) == (dt / SecondsPerMinute) % MinutesPerDay
  {
    var m, s := dt / 60, dt % 60;
    var d, mm := m / 1440, m % 1440;
    assert dt == d * 86400 + (mm * 60 + s);
    DivModDay(dt, d, mm * 60 + s);
    DivModMinute(mm * 60 + s, mm, s);
  }
}

=== FILE: dosage.dfy ===
/** The dosage string codec of models/dosage.py: `amount|unit[|form]`.

    The amount is kept as the text Python prints for it; `float()` of that
    text is taken to give the same number back. */
module DosageCodec {
  import opened Wrappers

  const Separator: char := '|'

  datatype Dosage = Dosage(amount: string, unit: string, form: Option<string>)

  /** Indexing a missing second field raises `IndexError`. */
  datatype ParseError = MissingUnit

  /** Python truthiness of `self.form`: present and non-empty. */
  predicate HasForm(d: Dosage)
  {
    d.form.Some? && d.form.value != ""
  }

  /** `value.split("|")`: the maximal separator-free pieces, in order. */
  function Split(s: string): (parts: seq<string>)
    ensures |parts| >= 1
    ensures forall i :: 0 <= i < |parts| ==> Separator !in parts[i]
  {
    if |s| == 0 then [""]
    else
      var rest := Split(s[1..]);
      if s[0] == Separator then [""] + rest
      else [[s[0]] + rest[0]] + rest[1..]
  }

  /** `"|".join(parts)`. */
  function Join(parts: seq<string>): string
    requires |parts| >= 1
  {
    if |parts| == 1 then parts[0] else parts[0] + [Separator] + Join(parts[1..])
  }

  lemma {:induction false} SplitNoSeparator(s: string)
    requires Separator !in s
    ensures Split(s) == [s]
  {
    if |s| > 0 {
      SplitNoSeparator(s[1..]);
      assert [s[0]] + s[1..] == s;
    }
  }

  lemma {:induction false} SplitAfterField(a: string, b: string)
    requires Separator !in a
    ensures Split(a + [Separator] + b) == [a] + Split(b)
  {
    var s := a + [Separator] + b;
    if |a| == 0 {
      assert s[0] == Separator && s[1..] == b;
    } else {
      assert s[0] == a[0];
      assert s[1..] == a[1..] + [Separator] + b;
      SplitAfterField(a[1..], b);
      assert [a[0]] + a[1..] == a;
    }
  }

  /** Splitting undoes joining separator-free fields. */
  lemma {:induction false} SplitJoin(parts: seq<string>)
    requires |parts| >= 1
    requires forall i :: 0 <= i < |parts| ==> Separator !in parts[i]
    ensures Split(Join(parts)) == parts
  {
    if |parts| == 1 {
      SplitNoSeparator(parts[0]);
    } else {
      SplitJoin(parts[1..]);
      SplitAfterField(parts[0], Join(parts[1..]));
      assert [parts[0]] + parts[1..] == parts;
    }
  }

  /** Joining undoes splitting: `split` loses nothing. */
  lemma {:induction false} JoinSplit(s: string)
    ensures Join(Split(s)) == s
  {
    if |s| > 0 {
      JoinSplit(s[1..]);
      var rest := Split(s[1..]);
      if s[0] == Separator {
        assert Join([""] + rest) == "" + [Separator] + Join(rest) by {
          assert ([""] + rest)[1..] == rest;
        }
      } else {
        var parts := [[s[0]] + rest[0]] + rest[1..];
        if |rest| > 1 {
          assert parts[1..] == rest[1..];
          assert Join(rest) == rest[0] + [Separator] + Join(rest[1..]);
        }
        assert [s[0]] + s[1..] == s;
      }
    }
  }

  /** A string splits into more than one field exactly when it contains the
      separator. */
  lemma {:induction false} SplitCount(s: string)
    ensures |Split(s)| >= 2 <==> Separator in s
  {
    if |s| > 0 {
      SplitCount(s[1..]);
      assert Separator in s <==> s[0] == Separator || Separator in s[1..];
    }
  }

  /** `Dosage.__str__`. The text always holds a separator, so it is never
      the empty string that reads back as "no dosage". */
  function Serialize(d: Dosage): (s: string)
    ensures Separator in s
  {
    var s := d.amount + [Separator] + d.unit + (if HasForm(d) then [Separator] + d.form.value else "");
    assert s[|d.amount|] == Separator;
    s
  }

  /** `f` is the field of `s` that starts at position `start`: it is followed
      by the end of `s` or by a separator. */
  ghost predicate FieldAt(s: string, start: nat, f: string)
  {
    && start + |f| <= |s|
    && s[start..start + |f|] == f
    && (start + |f| == |s| || s[start + |f|] == Separator)
  }

  /** The text after `amount|unit` holds no third field, or an empty one. */
  ghost predicate NoThirdField(s: string, unitEnd: nat)
  {
    unitEnd == |s| || unitEnd + 1 == |s| || (unitEnd + 1 < |s| && s[unitEnd + 1] == Separator)
  }

  /** `d` holds the fields of `v`: the amount is the first field, the unit the
      second, and the form the third, or absent when there is no third field
      or it is empty. */
  ghost predicate ReadsFields(v: string, d: Dosage)
  {
    && FieldAt(v, 0, d.amount)
    && FieldAt(v, |d.amount| + 1, d.unit)
    && (d.form.Some? ==> FieldAt(v, |d.amount| + |d.unit| + 2, d.form.value))
    && (d.form.None? ==> NoThirdField(v, |d.amount| + |d.unit| + 1))
  }

  /** The first fields of a join, written out. */
  lemma {:induction false} JoinLayout(parts: seq<string>)
    requires |parts| >= 2
    ensures Join(parts) == parts[0] + [Separator] + parts[1] + (if |parts| == 2 then "" else [Separator] + Join(parts[2..]))
    ensures |parts| > 2 ==> Join(parts[2..]) == parts[2] + (if |parts| == 3 then "" else [Separator] + Join(parts[3..]))
  {
    assert parts[1..][1..] == parts[2..];
    if |parts| > 2 {
      assert parts[2..][1..] == parts[3..];
    }
  }

  /** Where the fields of `Split(s)` sit in `s`. */
  lemma {:induction false} SplitLayout(s: string)
    requires |Split(s)| >= 2
    ensures var p := Split(s);
      && FieldAt(s, 0, p[0])
      && FieldAt(s, |p[0]| + 1, p[1])
      && (|p| > 2 ==> FieldAt(s, |p[0]| + |p[1]| + 2, p[2]))
      && (|p| == 2 ==> |p[0]| + |p[1]| + 1 == |s|)
  {
    var p := Split(s);
    JoinSplit(s);
    JoinLayout(p);
    var a, u := p[0], p[1];
    if |p| == 2 {
      assert s == a + [Separator] + u;
    } else {
      var tail := if |p| == 3 then "" else [Separator] + Join(p[3..]);
      assert tail == "" || tail[0] == Separator;
      assert s == a + [Separator] + u + [Separator] + p[2] + tail;
      assert s[|a| + |u| + 2..|a| + |u| + 2 + |p[2]|] == p[2];
    }
    assert s[..|a|] == a;
    assert s[|a| + 1..|a| + 1 + |u|] == u;
  }

  /** `Dosage.from_string`: `None` for a missing or empty value, an error when
      there is no second field; otherwise the amount is the first field, the
      unit the second, the form the third when it is present and non-empty,
      and later fields are dropped. */
  function Parse(value: Option<string>): (r: Result<Option<Dosage>, ParseError>)
    ensures r == Ok(None) <==> value == None || value == Some("")
    ensures r.Err? <==> value.Some? && value.value != "" && Separator !in value.value
    ensures r.Ok? && r.value.Some? ==>
      var d := r.value.value;
      var v := value.value;
      && Separator !in d.amount && Separator !in d.unit
      && (d.form.Some? ==> d.form.value != "" && Separator !in d.form.value)
      && ReadsFields(v, d)
  {
    if value.None? || value.value == "" then Ok(None)
    else
      var parts := Split(value.value);
      SplitCount(value.value);
      if |parts| < 2 then Err(MissingUnit)
      else
        SplitLayout(value.value);
        var form := if |parts| > 2 && parts[2] != "" then Some(parts[2]) else None;
        Ok(Some(Dosage(parts[0], parts[1], form)))
  }

  /** Fields after the third are ignored: appending them changes nothing. */
  lemma ParseIgnoresLaterFields(amount: string, unit: string, form: string, rest: string)
    requires Separator !in amount && Separator !in unit && Separator !in form
    ensures Parse(Some(amount + [Separator] + unit + [Separator] + form + [Separator] + rest)) ==
            Parse(Some(amount + [Separator] + unit + [Separator] + form))
  {
    var parts := [amount, unit, form];
    var long := amount + [Separator] + unit + [Separator] + form + [Separator] + rest;
    assert long == amount + [Separator] + (unit + [Separator] + (form + [Separator] + rest));
    SplitAfterField(amount, unit + [Separator] + (form + [Separator] + rest));
    SplitAfterField(unit, form + [Separator] + rest);
    SplitAfterField(form, rest);
    assert Split(long)[..3] == parts;
    JoinLayout(parts);
    assert parts[2..] == [form];
    SplitJoin(parts);
    assert Join(parts) == amount + [Separator] + unit + [Separator] + form;
  }

  /** An empty third field gives no form, whether it ends the text or is
      followed by more fields. */
  lemma ParseEmptyThirdField(amount: string, unit: string, rest: string)
    requires Separator !in amount && Separator !in unit
    ensures Parse(Some(amount + [Separator] + unit + [Separator])) == Ok(Some(Dosage(amount, unit, None)))
    ensures Parse(Some(amount + [Separator] + unit + [Separator] + [Separator] + rest)) ==
            Ok(Some(Dosage(amount, unit, None)))
  {
    ParseEmptyThirdFieldLast(amount, unit);
    ParseEmptyThirdFieldInside(amount, unit, rest);
  }

  lemma ParseEmptyThirdFieldLast(amount: string, unit: string)
    requires Separator !in amount && Separator !in unit
    ensures Parse(Some(amount + [Separator] + unit + [Separator])) == Ok(Some(Dosage(amount, unit, None)))
  {
    var v := amount + [Separator] + unit + [Separator];
    assert v == amount + [Separator] + (unit + [Separator] + "");
    SplitAfterField(amount, unit + [Separator] + "");
    SplitAfterField(unit, "");
    SplitNoSeparator("");
    assert Split(v) == [amount, unit, ""];
  }

  lemma ParseEmptyThirdFieldInside(amount: string, unit: string, rest: string)
    requires Separator !in amount && Separator !in unit
    ensures Parse(Some(amount + [Separator] + unit + [Separator] + [Separator] + rest)) ==
            Ok(Some(Dosage(amount, unit, None)))
  {
    var w := amount + [Separator] + unit + [Separator] + [Separator] + rest;
    assert w == amount + [Separator] + (unit + [Separator] + ("" + [Separator] + rest));
    SplitAfterField(amount, unit + [Separator] + ("" + [Separator] + rest));
    SplitAfterField(unit, "" + [Separator] + rest);
    SplitAfterField("", rest);
    var p := Split(w);
    assert |p| >= 3 && p[0] == amount && p[1] == unit && p[2] == "";
  }

  /** A dosage whose fields contain no separator, and whose form is absent
      rather than empty, survives a write and a read. */
  lemma ParseSerialize(d: Dosage)
    requires Separator !in d.amount && Separator !in d.unit
    requires d.form.Some? ==> d.form.value != "" && Separator !in d.form.value
    ensures Parse(Some(Serialize(d))) == Ok(Some(d))
  {
    var s := Serialize(d);
    if HasForm(d) {
      var parts := [d.amount, d.unit, d.form.value];
      assert parts[1..] == [d.unit, d.form.value] && parts[1..][1..] == [d.form.value];
      SplitJoin(parts);
      assert Join(parts[1..]) == d.unit + [Separator] + d.form.value;
      assert Join(parts) == d.amount + [Separator] + (d.unit + [Separator] + d.form.value);
      assert Join(parts) == s;
    } else {
      SplitJoin([d.amount, d.unit]);
      assert Join([d.amount, d.unit]) == s;
    }
  }

  /** An empty form does not survive: it is written like no form and read
      back as `None`. */
  lemma EmptyFormBecomesNone(d: Dosage)
    requires Separator !in d.amount && Separator !in d.unit
    requires d.form == Some("")
    ensures Parse(Some(Serialize(d))) == Ok(Some(d.(form := None)))
  {
    SplitJoin([d.amount, d.unit]);
    assert Join([d.amount, d.unit]) == Serialize(d);
  }

  /** Reading then writing gives back the stored text when it has two fields,
      or three with a non-empty last one. */
  lemma SerializeParse(s: string)
    requires |Split(s)| == 2 || (|Split(s)| == 3 && Split(s)[2] != "")
    ensures Parse(Some(s)).Ok? && Parse(Some(s)).value.Some?
    ensures Serialize(Parse(Some(s)).value.value) == s
  {
    JoinSplit(s);
    ParseFromSplit(s);
    SerializeFields(Split(s));
  }

  /** Text with at least two fields reads as its first fields. */
  lemma ParseFromSplit(s: string)
    requires |Split(s)| >= 2
    ensures var p := Split(s);
      Parse(Some(s)) == Ok(Some(Dosage(p[0], p[1], if |p| > 2 && p[2] != "" then Some(p[2]) else None)))
  {
    SplitCount(s);
  }

  /** Writing the fields of two- or three-field text joins them again. */
  lemma SerializeFields(p: seq<string>)
    requires |p| == 2 || (|p| == 3 && p[2] != "")
    ensures Serialize(Dosage(p[0], p[1], if |p| > 2 && p[2] != "" then Some(p[2]) else None)) == Join(p)
  {
    if |p| == 3 {
      assert p[1..][1..] == [p[2]];
      assert Join(p) == p[0] + [Separator] + (p[1] + [Separator] + p[2]);
    } else {
      assert p[1..] == [p[1]];
    }
  }

  /** The stored forms in tests/test_dosage.py. */
  lemma DosageExamplesWrite()
    ensures Serialize(Dosage("500", "mg", None)) == "500|mg"
    ensures Serialize(Dosage("2.5", "ml", Some("tablet"))) == "2.5|ml|tablet"
  {
  }

  /** The stored forms read back in tests/test_dosage.py. */
  lemma DosageExamplesReadForm()
    ensures Parse(Some("2.5|ml|capsule")) == Ok(Some(Dosage("2.5", "ml", Some("capsule"))))
  {
    var withForm := Dosage("2.5", "ml", Some("capsule"));
    ParseSerialize(withForm);
    assert Serialize(withForm) == "2.5|ml|capsule";
  }

  lemma DosageExamplesReadPlain()
    ensures Parse(Some("500|mg")) == Ok(Some(Dosage("500", "mg", None)))
    ensures Parse(Some("")) == Ok(None) && Parse(None) == Ok(None)
  {
    var plain := Dosage("500", "mg", None);
    ParseSerialize(plain);
    assert Serialize(plain) == "500|mg";
  }
}

=== FILE: intake_log_validator.dfy ===
/** validators/intake_log_validator.py: medication id, scheduled time, taken
    time, amount, notes, creation time; the first failing check decides the
    error. The wall clock is the parameter `now`. */
module IntakeLogValidator {
  import opened Wrappers
  import opened Records

  datatype IntakeLogError =
    | MissingMedicationId
    | ScheduledInFuture
    | TakenInFuture
    | TakenBeforeScheduled
    | NegativeAmount
    | NotesTooLong
    | CreatedInFuture

  const MaxNotesLength: int := 500

  /** The intake-log invariant: a medication id, no scheduled or taken time
      or creation time after `now`, not taken before the scheduled time, a
      non-negative amount and notes of at most 500 characters. */
  ghost predicate WellFormed(log: IntakeLog, now: int)
  {
    && log.medicationId != ""
    && (log.scheduledTime.Some? ==> log.scheduledTime.value <= now && log.scheduledTime.value <= log.takenTime)
    && log.takenTime <= now
    && log.amountTaken >= 0.0
    && (log.notes.Some? ==> |log.notes.value| <= 500)
    && log.createdAt <= now
  }

  /** `IntakeLogValidator.validate`. */
  function Validate(log: IntakeLog, now: int): (r: Outcome<IntakeLogError>)
    ensures r == Pass <==> WellFormed(log, now)
    ensures r == Fail(MissingMedicationId) <==> log.medicationId == ""
    ensures r == Fail(ScheduledInFuture) <==>
      log.medicationId != "" && log.scheduledTime.Some? && log.scheduledTime.value > now
    ensures r == Fail(TakenInFuture) <==>
      && log.medicationId != "" && (log.scheduledTime.Some? ==> log.scheduledTime.value <= now)
      && log.takenTime > now
    ensures r == Fail(TakenBeforeScheduled) <==>
      && log.medicationId != "" && (log.scheduledTime.Some? ==> log.scheduledTime.value <= now)
      && log.takenTime <= now
      && log.scheduledTime.Some? && log.takenTime < log.scheduledTime.value
    ensures r == Fail(NegativeAmount) <==>
      && log.medicationId != ""
      && (log.scheduledTime.Some? ==> log.scheduledTime.value <= now && log.scheduledTime.value <= log.takenTime)
      && log.takenTime <= now
      && log.amountTaken < 0.0
    ensures r == Fail(NotesTooLong) <==>
      && log.medicationId != ""
      && (log.scheduledTime.Some? ==> log.scheduledTime.value <= now && log.scheduledTime.value <= log.takenTime)
      && log.takenTime <= now
      && log.amountTaken >= 0.0
      && log.notes.Some? && |log.notes.value| > 500
    ensures r == Fail(CreatedInFuture) <==> WellFormed(log.(createdAt := now), now) && log.createdAt > now
  {
    if log.medicationId == "" then Fail(MissingMedicationId)
    else if log.scheduledTime.Some? && log.scheduledTime.value > now then Fail(ScheduledInFuture)
    else if log.takenTime > now then Fail(TakenInFuture)
    else if log.scheduledTime.Some? && log.takenTime < log.scheduledTime.value then Fail(TakenBeforeScheduled)
    else if log.amountTaken < 0.0 then Fail(NegativeAmount)
    else if log.notes.Some? && |log.notes.value| > MaxNotesLength then Fail(NotesTooLong)
    else if log.createdAt > now then Fail(CreatedInFuture)
    else Pass
  }

  /** A manual log (no scheduled time) passes the scheduled-time checks,
      and zero is an accepted amount. */
  lemma ManualLogAccepted(log: IntakeLog, now: int)
    requires log.medicationId != "" && log.scheduledTime.None?
    requires log.takenTime <= now && log.createdAt <= now && log.notes.None?
    requires log.amountTaken == 0.0
    ensures Validate(log, now) == Pass
  {
  }
}

=== FILE: medication_validator.dfy ===
/** validators/medication_validator.py: name, dosage, notes, id, creation
    time; the first failing check decides the error. The wall clock is the
    parameter `now`. */
module MedicationValidator {
  import opened Wrappers
  import opened Text
  import opened Records

  datatype MedicationError =
    | EmptyName
    | NameTooLong
    | EmptyDosage
    | DosageTooLong
    | NotesTooLong
    | MissingId
    | CreatedInFuture

  const MaxNameLength: int := 100
  const MaxDosageLength: int := 50
  const MaxNotesLength: int := 500

  /** The medication invariant: a name of 1..100 characters that is not all
      whitespace, likewise a dosage of at most 50, notes of at most 500, a
      non-empty id, and a creation time not after `now`. */
  ghost predicate WellFormed(med: Medication, now: int)
  {
    && !AllSpace(med.name) && |med.name| <= 100
    && !AllSpace(med.dosage) && |med.dosage| <= 50
    && |med.notes| <= 500
    && med.id.Some? && med.id.value != ""
    && med.createdAt <= now
  }

  /** `MedicationValidator.validate`. */
  function Validate(med: Medication, now: int): (r: Outcome<MedicationError>)
    ensures r == Pass <==> WellFormed(med, now)
    ensures r == Fail(EmptyName) <==> AllSpace(med.name)
    ensures r == Fail(NameTooLong) <==> !AllSpace(med.name) && |med.name| > 100
    ensures r == Fail(EmptyDosage) <==> !AllSpace(med.name) && |med.name| <= 100 && AllSpace(med.dosage)
    ensures r == Fail(DosageTooLong) <==>
      && !AllSpace(med.name) && |med.name| <= 100
      && !AllSpace(med.dosage) && |med.dosage| > 50
    ensures r == Fail(NotesTooLong) <==>
      && !AllSpace(med.name) && |med.name| <= 100
      && !AllSpace(med.dosage) && |med.dosage| <= 50
      && |med.notes| > 500
    ensures r == Fail(MissingId) <==>
      && !AllSpace(med.name) && |med.name| <= 100
      && !AllSpace(med.dosage) && |med.dosage| <= 50
      && |med.notes| <= 500
      && (med.id == None || med.id == Some(""))
    ensures r == Fail(CreatedInFuture) <==> WellFormed(med.(createdAt := now), now) && med.createdAt > now
  {
    BlankIffAllSpace(med.name);
    BlankIffAllSpace(med.dosage);
    if IsBlank(med.name) then Fail(EmptyName)
    else if |med.name| > MaxNameLength then Fail(NameTooLong)
    else if IsBlank(med.dosage) then Fail(EmptyDosage)
    else if |med.dosage| > MaxDosageLength then Fail(DosageTooLong)
    else if |med.notes| > MaxNotesLength then Fail(NotesTooLong)
    else if med.id.None? || med.id.value == "" then Fail(MissingId)
    else if med.createdAt > now then Fail(CreatedInFuture)
    else Pass
  }

  /** The dataclass default id `""` is rejected once the earlier checks pass. */
  lemma DefaultIdRejected(med: Medication, now: int)
    requires med.id == Some("")
    requires !AllSpace(med.name) && |med.name| <= 100
    requires !AllSpace(med.dosage) && |med.dosage| <= 50 && |med.notes| <= 500
    ensures Validate(med, now) == Fail(MissingId)
  {
  }
}

=== FILE: records.dfy ===
/** The persisted records of the application (models/schedule.py,
    models/reminder.py, models/intake_log.py, models/medication.py) and the
    repository queries the core uses, over repositories held as sequences
    in storage order. */
module Records {
  import opened Wrappers
  import opened Clock
  import opened Seqs

  /** One element of `Schedule.days_of_week`. The field is declared as a list
      of ints (0 = Monday .. 6 = Sunday), but nothing in Python enforces the
      element type, and one comparison in the due-reminder check treats the
      elements as weekday names; both kinds are kept apart here. */
  datatype DayEntry = Index(index: int) | Name(name: string)

  datatype Schedule = Schedule(
    id: string,
    medicationId: string,
    times: seq<TimeOfDay>,
    frequency: string,
    daysOfWeek: seq<DayEntry>,
    startDate: int,
    endDate: Option<int>,
    isActive: bool,
    createdAt: int)

  datatype Reminder = Reminder(
    id: string,
    medicationId: string,
    scheduledId: string,
    enabled: bool,
    offsetMinutes: int)

  datatype IntakeLog = IntakeLog(
    id: string,
    medicationId: string,
    scheduledTime: Option<int>,
    takenTime: int,
    amountTaken: real,
    notes: Option<string>,
    createdAt: int)

  /** `id` is optional because the engine skips medications whose id is `None`;
      the dataclass default is `Some("")`. */
  datatype Medication = Medication(
    id: Option<string>,
    name: string,
    description: string,
    dosage: string,
    isActive: bool,
    notes: string,
    createdAt: int)

  /** `ScheduleRepository.get_by_medication`. */
  function SchedulesOf(repo: seq<Schedule>, medicationId: string): (r: seq<Schedule>)
    ensures forall s :: s in r <==> s in repo && s.medicationId == medicationId
    ensures forall s :: multiset(r)[s] == if s.medicationId == medicationId then multiset(repo)[s] else 0
  {
    Filter(repo, (s: Schedule) => s.medicationId == medicationId)
  }

  /** The query keeps storage order: the schedules of two stretches of the
      repository come out one stretch after the other. */
  lemma SchedulesOfKeepsOrder(a: seq<Schedule>, b: seq<Schedule>, medicationId: string)
    ensures SchedulesOf(a + b, medicationId) == SchedulesOf(a, medicationId) + SchedulesOf(b, medicationId)
  {
    FilterConcat(a, b, (s: Schedule) => s.medicationId == medicationId);
  }

  /** `ReminderRepository.get_by_schedule`. */
  function RemindersOf(repo: seq<Reminder>, scheduleId: string): (r: seq<Reminder>)
    ensures forall x :: x in r <==> x in repo && x.scheduledId == scheduleId
    ensures forall x :: multiset(r)[x] == if x.scheduledId == scheduleId then multiset(repo)[x] else 0
  {
    Filter(repo, (x: Reminder) => x.scheduledId == scheduleId)
  }

  /** `IntakeLogRepository.get_by_medication`. */
  function LogsOf(repo: seq<IntakeLog>, medicationId: string): (r: seq<IntakeLog>)
    ensures forall l :: l in r <==> l in repo && l.medicationId == medicationId
    ensures forall l :: multiset(r)[l] == if l.medicationId == medicationId then multiset(repo)[l] else 0
  {
    Filter(repo, (l: IntakeLog) => l.medicationId == medicationId)
  }
}

=== FILE: reminder_event.dfy ===
/** models/reminder_event.py: one dose paired with one reminder setting. */
module ReminderEvents {

  datatype ReminderEvent = ReminderEvent(
    medicationId: string,
    scheduleId: string,
    scheduleTime: int,
    reminderTime: int,
    isTaken: bool,
    isOverdue: bool)
  {
    /** `is_due`, with the wall clock passed in as `now`. */
    predicate IsDue(now: int)
    {
      now >= reminderTime && !isTaken
    }
  }

  /** A taken dose is never due. */
  lemma TakenNeverDue(e: ReminderEvent, now: int)
    requires e.isTaken
    ensures !e.IsDue(now)
  {
  }

  /** Once due, an event stays due as time moves on. */
  lemma DueIsMonotone(e: ReminderEvent, now: int, later: int)
    requires e.IsDue(now) && now <= later
    ensures e.IsDue(later)
  {
  }

  /** Due-ness reads only the reminder time and the taken flag. */
  lemma DueIgnoresDoseAndOverdue(e: ReminderEvent, now: int, scheduleTime: int, isOverdue: bool)
    ensures e.(scheduleTime := scheduleTime, isOverdue := isOverdue).IsDue(now) == e.IsDue(now)
  {
  }
}

=== FILE: reminder_validator.dfy ===
/** validators/reminder_validator.py: medication id, schedule id, then the
    offset bounds; the first failing check decides the error. */
module ReminderValidator {
  import opened Wrappers
  import opened Text
  import opened Records

  datatype ReminderError = BlankMedicationId | BlankScheduledId | NegativeOffset | OffsetTooLarge

  /** The longest lead time, one day. */
  const MaxOffsetMinutes: int := 1440

  /** `ReminderValidator.validate`. */
  function Validate(x: Reminder): (r: Outcome<ReminderError>)
    ensures r == Pass <==>
      && (exists i :: 0 <= i < |x.medicationId| && !IsSpace(x.medicationId[i]))
      && (exists i :: 0 <= i < |x.scheduledId| && !IsSpace(x.scheduledId[i]))
      && 0 <= x.offsetMinutes <= 1440
    ensures r == Fail(BlankMedicationId) <==> AllSpace(x.medicationId)
    ensures r == Fail(BlankScheduledId) <==> !AllSpace(x.medicationId) && AllSpace(x.scheduledId)
    ensures r == Fail(NegativeOffset) <==>
      !AllSpace(x.medicationId) && !AllSpace(x.scheduledId) && x.offsetMinutes < 0
    ensures r == Fail(OffsetTooLarge) <==>
      !AllSpace(x.medicationId) && !AllSpace(x.scheduledId) && x.offsetMinutes > 1440
  {
    BlankIffAllSpace(x.medicationId);
    BlankIffAllSpace(x.scheduledId);
    if IsBlank(x.medicationId) then Fail(BlankMedicationId)
    else if IsBlank(x.scheduledId) then Fail(BlankScheduledId)
    else if x.offsetMinutes < 0 then Fail(NegativeOffset)
    else if x.offsetMinutes > MaxOffsetMinutes then Fail(OffsetTooLarge)
    else Pass
  }

  /** Both ends of the offset range are accepted. */
  lemma OffsetBoundsAccepted(x: Reminder)
    requires !AllSpace(x.medicationId) && !AllSpace(x.scheduledId)
    ensures Validate(x.(offsetMinutes := 0)) == Pass
    ensures Validate(x.(offsetMinutes := 1440)) == Pass
    ensures Validate(x.(offsetMinutes := 1441)) == Fail(OffsetTooLarge)
    ensures Validate(x.(offsetMinutes := -1)) == Fail(NegativeOffset)
  {
  }
}

=== FILE: reminders.dfy ===
/** services/reminders.py: reminder events derived from schedules, reminder
    settings and intake logs, and the views filtered from them. One `now` is
    used for a whole call. */
module Reminders {
  import opened Wrappers
  import opened Clock
  import opened Seqs
  import opened Records
  import opened ScheduleEngine
  import opened ReminderEvents

  /** `_is_taken`: some intake log of the medication records exactly this
      dose time as its scheduled time. */
  function IsTaken(logs: seq<IntakeLog>, medicationId: string, scheduledTime: int): (b: bool)
    ensures b <==> exists l :: l in logs && l.medicationId == medicationId && l.scheduledTime == Some(scheduledTime)
  {
    AnyRecords(LogsOf(logs, medicationId), scheduledTime)
  }

  /** The scan over one medication's logs. */
  function AnyRecords(logs: seq<IntakeLog>, scheduledTime: int): (b: bool)
    ensures b <==> exists l :: l in logs && l.scheduledTime == Some(scheduledTime)
  {
    if |logs| == 0 then false
    else if logs[0].scheduledTime == Some(scheduledTime) then true
    else
      assert forall l :: l in logs <==> l == logs[0] || l in logs[1..];
      AnyRecords(logs[1..], scheduledTime)
  }

  /** The event for one dose of `s` and one reminder setting. */
  function MakeEvent(s: Schedule, dose: int, reminder: Reminder, logs: seq<IntakeLog>, now: int): ReminderEvent
  {
    var taken := IsTaken(logs, s.medicationId, dose);
    ReminderEvent(s.medicationId, s.id, dose, MinusMinutes(dose, reminder.offsetMinutes), taken, dose < now && !taken)
  }

  /** The inner loop: one event per enabled reminder, in reminder order. */
  function EventsForDose(s: Schedule, dose: int, reminders: seq<Reminder>, logs: seq<IntakeLog>, now: int): (r: seq<ReminderEvent>)
    ensures |r| == EnabledCount(reminders)
    ensures forall e :: e in r <==> exists x :: x in reminders && x.enabled && e == MakeEvent(s, dose, x, logs, now)
  {
    if |reminders| == 0 then []
    else
      assert forall x :: x in reminders <==> x == reminders[0] || x in reminders[1..];
      (if reminders[0].enabled then [MakeEvent(s, dose, reminders[0], logs, now)] else [])
        + EventsForDose(s, dose, reminders[1..], logs, now)
  }

  /** Within a dose, events follow the order of the reminder settings. */
  lemma {:induction false} EventsFollowReminderOrder(s: Schedule, dose: int, a: seq<Reminder>, b: seq<Reminder>, logs: seq<IntakeLog>, now: int)
    ensures EventsForDose(s, dose, a + b, logs, now) == EventsForDose(s, dose, a, logs, now) + EventsForDose(s, dose, b, logs, now)
  {
    if |a| == 0 {
      assert a + b == b;
    } else {
      assert (a + b)[0] == a[0];
      assert (a + b)[1..] == a[1..] + b;
      EventsFollowReminderOrder(s, dose, a[1..], b, logs, now);
    }
  }

  /** The number of enabled reminders. */
  function EnabledCount(reminders: seq<Reminder>): nat
  {
    if |reminders| == 0 then 0
    else (if reminders[0].enabled then 1 else 0) + EnabledCount(reminders[1..])
  }

  /** The middle loop over the doses of one schedule. */
  function EventsForDoses(s: Schedule, doses: seq<int>, reminders: seq<Reminder>, logs: seq<IntakeLog>, now: int): (r: seq<ReminderEvent>)
    ensures forall e :: e in r <==>
      exists d, x :: d in doses && x in reminders && x.enabled && e == MakeEvent(s, d, x, logs, now)
  {
    if |doses| == 0 then []
    else
      assert forall d :: d in doses <==> d == doses[0] || d in doses[1..];
      EventsForDose(s, doses[0], reminders, logs, now) + EventsForDoses(s, doses[1..], reminders, logs, now)
  }

  lemma {:induction false} EventsForDosesLength(s: Schedule, doses: seq<int>, reminders: seq<Reminder>, logs: seq<IntakeLog>, now: int)
    ensures |EventsForDoses(s, doses, reminders, logs, now)| == |doses| * EnabledCount(reminders)
  {
    if |doses| > 0 {
      EventsForDosesLength(s, doses[1..], reminders, logs, now);
      var n, k := |doses| - 1, EnabledCount(reminders);
      assert (n + 1) * k == k + n * k;
    }
  }

  /** The events of one schedule; a schedule without reminder settings is
      skipped before it is expanded. */
  function EventsForSchedule(s: Schedule, reminders: seq<Reminder>, logs: seq<IntakeLog>, now: int): seq<ReminderEvent>
  {
    var mine := RemindersOf(reminders, s.id);
    if |mine| == 0 then [] else EventsForDoses(s, GenerateDoseEvents(s), mine, logs, now)
  }

  /** `generate_events`: schedule by schedule, dose by dose, reminder by
      reminder. */
  function GenerateEvents(schedules: seq<Schedule>, reminders: seq<Reminder>, logs: seq<IntakeLog>, now: int): seq<ReminderEvent>
  {
    if |schedules| == 0 then []
    else EventsForSchedule(schedules[0], reminders, logs, now) + GenerateEvents(schedules[1..], reminders, logs, now)
  }

  /** `e` is the event of some enabled reminder of a listed schedule at one of
      its expanded doses. */
  ghost predicate Derived(e: ReminderEvent, schedules: seq<Schedule>, reminders: seq<Reminder>, logs: seq<IntakeLog>, now: int)
  {
    exists s, x :: s in schedules && x in reminders && x.scheduledId == s.id && x.enabled &&
      e.scheduleTime in GenerateDoseEvents(s) && e == MakeEvent(s, e.scheduleTime, x, logs, now)
  }

  /** Every generated event comes from an enabled reminder of its schedule,
      and every enabled reminder fires at every dose of its schedule. */
  lemma {:induction false} GenerateEventsExact(schedules: seq<Schedule>, reminders: seq<Reminder>, logs: seq<IntakeLog>, now: int)
    ensures forall e :: e in GenerateEvents(schedules, reminders, logs, now) <==> Derived(e, schedules, reminders, logs, now)
  {
    if |schedules| > 0 {
      GenerateEventsExact(schedules[1..], reminders, logs, now);
      var s := schedules[0];
      var head := EventsForSchedule(s, reminders, logs, now);
      var mine := RemindersOf(reminders, s.id);
      forall e
        ensures e in GenerateEvents(schedules, reminders, logs, now) <==> Derived(e, schedules, reminders, logs, now)
      {
        if e in head {
          var d, x :| d in GenerateDoseEvents(s) && x in mine && x.enabled && e == MakeEvent(s, d, x, logs, now);
          assert e.scheduleTime == d;
        } else if Derived(e, schedules, reminders, logs, now) {
          var t, x :| t in schedules && x in reminders && x.scheduledId == t.id && x.enabled &&
            e.scheduleTime in GenerateDoseEvents(t) && e == MakeEvent(t, e.scheduleTime, x, logs, now);
          assert t in schedules[1..];
          assert Derived(e, schedules[1..], reminders, logs, now);
        }
      }
    }
  }

  /** Every event satisfies the overdue invariant and reports taken-ness by
      exact match against the medication's intake logs. */
  lemma {:induction false} EventFlags(schedules: seq<Schedule>, reminders: seq<Reminder>, logs: seq<IntakeLog>, now: int)
    ensures forall e :: e in GenerateEvents(schedules, reminders, logs, now) ==>
      && (e.isTaken <==> exists l :: l in logs && l.medicationId == e.medicationId && l.scheduledTime == Some(e.scheduleTime))
      && e.isOverdue == (e.scheduleTime < now && !e.isTaken)
  {
    GenerateEventsExact(schedules, reminders, logs, now);
  }

  /** With non-negative offsets the reminder never comes after the dose. */
  lemma {:induction false} ReminderPrecedesDose(schedules: seq<Schedule>, reminders: seq<Reminder>, logs: seq<IntakeLog>, now: int)
    requires forall x :: x in reminders ==> x.offsetMinutes >= 0
    ensures forall e :: e in GenerateEvents(schedules, reminders, logs, now) ==> e.reminderTime <= e.scheduleTime
  {
    GenerateEventsExact(schedules, reminders, logs, now);
  }

  /** `|doses| * |enabled reminders|` events for every schedule that has
      reminder settings. */
  function ExpectedCount(schedules: seq<Schedule>, reminders: seq<Reminder>): int
  {
    if |schedules| == 0 then 0
    else
      var mine := RemindersOf(reminders, schedules[0].id);
      (if |mine| == 0 then 0 else |GenerateDoseEvents(schedules[0])| * EnabledCount(mine))
        + ExpectedCount(schedules[1..], reminders)
  }

  lemma {:induction false} EventCount(schedules: seq<Schedule>, reminders: seq<Reminder>, logs: seq<IntakeLog>, now: int)
    ensures |GenerateEvents(schedules, reminders, logs, now)| == ExpectedCount(schedules, reminders)
  {
    if |schedules| > 0 {
      EventCount(schedules[1..], reminders, logs, now);
      var mine := RemindersOf(reminders, schedules[0].id);
      EventsForDosesLength(schedules[0], GenerateDoseEvents(schedules[0]), mine, logs, now);
    }
  }

  /** The schedule loop is a flat map over the schedules. */
  lemma {:induction false} GenerateEventsFlat(schedules: seq<Schedule>, reminders: seq<Reminder>, logs: seq<IntakeLog>, now: int)
    ensures GenerateEvents(schedules, reminders, logs, now) ==
      FlatMap(schedules, (s: Schedule) => EventsForSchedule(s, reminders, logs, now))
  {
    if |schedules| > 0 {
      GenerateEventsFlat(schedules[1..], reminders, logs, now);
    }
  }

  /** Events follow the schedule order: the events of a concatenation of
      schedule lists are the concatenation of their events. */
  lemma {:induction false} EventsFollowScheduleOrder(a: seq<Schedule>, b: seq<Schedule>, reminders: seq<Reminder>, logs: seq<IntakeLog>, now: int)
    ensures GenerateEvents(a + b, reminders, logs, now) == GenerateEvents(a, reminders, logs, now) + GenerateEvents(b, reminders, logs, now)
  {
    GenerateEventsFlat(a + b, reminders, logs, now);
    GenerateEventsFlat(a, reminders, logs, now);
    GenerateEventsFlat(b, reminders, logs, now);
    FlatMapConcat(a, b, (s: Schedule) => EventsForSchedule(s, reminders, logs, now));
  }

  /** Within a schedule, events follow the dose order. */
  lemma {:induction false} EventsFollowDoseOrder(s: Schedule, a: seq<int>, b: seq<int>, reminders: seq<Reminder>, logs: seq<IntakeLog>, now: int)
    ensures EventsForDoses(s, a + b, reminders, logs, now) ==
      EventsForDoses(s, a, reminders, logs, now) + EventsForDoses(s, b, reminders, logs, now)
  {
    if |a| == 0 {
      assert a + b == b;
    } else {
      assert (a + b)[1..] == a[1..] + b;
      EventsFollowDoseOrder(s, a[1..], b, reminders, logs, now);
    }
  }

  /** A schedule whose reminder settings are missing or all disabled
      contributes no event. */
  lemma ScheduleWithoutEnabledRemindersGivesNoEvents(schedules: seq<Schedule>, reminders: seq<Reminder>, logs: seq<IntakeLog>, now: int, id: string)
    requires forall x :: x in reminders && x.scheduledId == id ==> !x.enabled
    ensures forall e :: e in GenerateEvents(schedules, reminders, logs, now) ==> e.scheduleId != id
  {
    GenerateEventsExact(schedules, reminders, logs, now);
  }

  /** When every reminder setting in the repository is disabled, no event is
      generated at all. */
  lemma {:induction false} DisabledRemindersGiveNoEvents(schedules: seq<Schedule>, reminders: seq<Reminder>, logs: seq<IntakeLog>, now: int)
    requires forall x :: x in reminders ==> !x.enabled
    ensures GenerateEvents(schedules, reminders, logs, now) == []
  {
    EventCount(schedules, reminders, logs, now);
    NothingExpected(schedules, reminders);
  }

  lemma {:induction false} NothingExpected(schedules: seq<Schedule>, reminders: seq<Reminder>)
    requires forall x :: x in reminders ==> !x.enabled
    ensures ExpectedCount(schedules, reminders) == 0
  {
    if |schedules| > 0 {
      NothingExpected(schedules[1..], reminders);
      NoneEnabled(RemindersOf(reminders, schedules[0].id));
    }
  }

  lemma {:induction false} NoneEnabled(reminders: seq<Reminder>)
    requires forall x :: x in reminders ==> !x.enabled
    ensures EnabledCount(reminders) == 0
  {
    if |reminders| > 0 {
      NoneEnabled(reminders[1..]);
    }
  }

  /** `get_upcoming`. */
  function GetUpcoming(schedules: seq<Schedule>, reminders: seq<Reminder>, logs: seq<IntakeLog>, now: int): (r: seq<ReminderEvent>)
    ensures forall e :: e in r <==> e in GenerateEvents(schedules, reminders, logs, now) && now < e.reminderTime && !e.isTaken
    ensures forall e :: multiset(r)[e] ==
                        if now < e.reminderTime && !e.isTaken then multiset(GenerateEvents(schedules, reminders, logs, now))[e] else 0
  {
    Filter(GenerateEvents(schedules, reminders, logs, now), (e: ReminderEvent) => now < e.reminderTime && !e.isTaken)
  }

  /** `get_due`. */
  function GetDue(schedules: seq<Schedule>, reminders: seq<Reminder>, logs: seq<IntakeLog>, now: int): (r: seq<ReminderEvent>)
    ensures forall e :: e in r <==>
      e in GenerateEvents(schedules, reminders, logs, now) && e.reminderTime <= now <= e.scheduleTime && !e.isTaken
    ensures forall e :: multiset(r)[e] ==
                        if e.reminderTime <= now <= e.scheduleTime && !e.isTaken then multiset(GenerateEvents(schedules, reminders, logs, now))[e] else 0
    ensures forall e :: e in r ==> e.IsDue(now)
  {
    Filter(GenerateEvents(schedules, reminders, logs, now),
      (e: ReminderEvent) => e.reminderTime <= now <= e.scheduleTime && !e.isTaken)
  }

  /** `get_overdue`. */
  function GetOverdue(schedules: seq<Schedule>, reminders: seq<Reminder>, logs: seq<IntakeLog>, now: int): (r: seq<ReminderEvent>)
    ensures forall e :: e in r <==> e in GenerateEvents(schedules, reminders, logs, now) && e.scheduleTime < now && !e.isTaken
    ensures forall e :: multiset(r)[e] ==
                        if e.isOverdue then multiset(GenerateEvents(schedules, reminders, logs, now))[e] else 0
  {
    EventFlags(schedules, reminders, logs, now);
    Filter(GenerateEvents(schedules, reminders, logs, now), (e: ReminderEvent) => e.isOverdue)
  }

  /** The views keep the order of the schedules: the view of a concatenation
      of schedule lists is the concatenation of their views. Together with
      `EventsFollowDoseOrder` and `EventsFollowReminderOrder` this fixes the
      order of every view. */
  lemma {:induction false} ViewsFollowScheduleOrder(a: seq<Schedule>, b: seq<Schedule>, reminders: seq<Reminder>, logs: seq<IntakeLog>, now: int)
    ensures GetUpcoming(a + b, reminders, logs, now) == GetUpcoming(a, reminders, logs, now) + GetUpcoming(b, reminders, logs, now)
    ensures GetDue(a + b, reminders, logs, now) == GetDue(a, reminders, logs, now) + GetDue(b, reminders, logs, now)
    ensures GetOverdue(a + b, reminders, logs, now) == GetOverdue(a, reminders, logs, now) + GetOverdue(b, reminders, logs, now)
  {
    EventsFollowScheduleOrder(a, b, reminders, logs, now);
    var ea, eb := GenerateEvents(a, reminders, logs, now), GenerateEvents(b, reminders, logs, now);
    FilterConcat(ea, eb, (e: ReminderEvent) => now < e.reminderTime && !e.isTaken);
    FilterConcat(ea, eb, (e: ReminderEvent) => e.reminderTime <= now <= e.scheduleTime && !e.isTaken);
    FilterConcat(ea, eb, (e: ReminderEvent) => e.isOverdue);
  }

  /** For one `now` the three views never show a taken dose, and no event
      is both upcoming and due, or both due and overdue. */
  lemma ViewsAreDisjoint(schedules: seq<Schedule>, reminders: seq<Reminder>, logs: seq<IntakeLog>, now: int, e: ReminderEvent)
    ensures e in GetUpcoming(schedules, reminders, logs, now) ==> !e.isTaken && e !in GetDue(schedules, reminders, logs, now)
    ensures e in GetDue(schedules, reminders, logs, now) ==> !e.isTaken && e !in GetOverdue(schedules, reminders, logs, now)
    ensures e in GetOverdue(schedules, reminders, logs, now) ==> !e.isTaken
  {
  }

  /** The medication's upcoming events, in generation order. */
  function UpcomingFor(schedules: seq<Schedule>, reminders: seq<Reminder>, logs: seq<IntakeLog>, medicationId: string, now: int): (r: seq<ReminderEvent>)
    ensures forall e :: e in r <==> e in GetUpcoming(schedules, reminders, logs, now) && e.medicationId == medicationId
  {
    Filter(GetUpcoming(schedules, reminders, logs, now), (e: ReminderEvent) => e.medicationId == medicationId)
  }

  /** `get_next_for_medication`: among the medication's upcoming events, the
      first one with the least reminder time, or `None` when it has none. */
  function GetNextForMedication(schedules: seq<Schedule>, reminders: seq<Reminder>, logs: seq<IntakeLog>, medicationId: string, now: int): (r: Option<ReminderEvent>)
    ensures var c := UpcomingFor(schedules, reminders, logs, medicationId, now);
      && (r.None? <==> c == [])
      && (r.Some? ==> r.value in c && forall e :: e in c ==> r.value.reminderTime <= e.reminderTime)
      && (r.Some? ==> exists i :: 0 <= i < |c| && c[i] == r.value &&
                        forall j :: 0 <= j < i ==> r.value.reminderTime < c[j].reminderTime)
  {
    var upcoming := UpcomingFor(schedules, reminders, logs, medicationId, now);
    if |upcoming| == 0 then None
    else Some(upcoming[FirstMinBy(upcoming, (e: ReminderEvent) => e.reminderTime)])
  }

  /** A dose within its reminder window that has not been taken is due and
      not overdue (tests/test_reminder.py scenarios). */
  lemma DueBeforeDose(schedules: seq<Schedule>, reminders: seq<Reminder>, logs: seq<IntakeLog>, now: int,
                      s: Schedule, x: Reminder, dose: int)
    requires s in schedules && x in reminders && x.scheduledId == s.id && x.enabled
    requires dose in GenerateDoseEvents(s)
    requires !IsTaken(logs, s.medicationId, dose)
    requires MinusMinutes(dose, x.offsetMinutes) <= now <= dose
    ensures MakeEvent(s, dose, x, logs, now) in GetDue(schedules, reminders, logs, now)
    ensures MakeEvent(s, dose, x, logs, now) !in GetOverdue(schedules, reminders, logs, now)
  {
    GenerateEventsExact(schedules, reminders, logs, now);
    assert Derived(MakeEvent(s, dose, x, logs, now), schedules, reminders, logs, now);
  }

  /** Once the dose time has passed without an intake log, the event is
      overdue and neither due nor upcoming. */
  lemma OverdueAfterDose(schedules: seq<Schedule>, reminders: seq<Reminder>, logs: seq<IntakeLog>, now: int,
                         s: Schedule, x: Reminder, dose: int)
    requires s in schedules && x in reminders && x.scheduledId == s.id && x.enabled
    requires dose in GenerateDoseEvents(s)
    requires !IsTaken(logs, s.medicationId, dose)
    requires x.offsetMinutes >= 0 && dose < now
    ensures MakeEvent(s, dose, x, logs, now) in GetOverdue(schedules, reminders, logs, now)
    ensures MakeEvent(s, dose, x, logs, now) !in GetDue(schedules, reminders, logs, now)
    ensures MakeEvent(s, dose, x, logs, now) !in GetUpcoming(schedules, reminders, logs, now)
  {
    GenerateEventsExact(schedules, reminders, logs, now);
    assert Derived(MakeEvent(s, dose, x, logs, now), schedules, reminders, logs, now);
  }

  /** A dose recorded in an intake log yields a taken, never overdue event,
      however long ago it was. */
  lemma LoggedDoseIsTaken(schedules: seq<Schedule>, reminders: seq<Reminder>, logs: seq<IntakeLog>, now: int,
                          s: Schedule, x: Reminder, dose: int, l: IntakeLog)
    requires s in schedules && x in reminders && x.scheduledId == s.id && x.enabled
    requires dose in GenerateDoseEvents(s)
    requires l in logs && l.medicationId == s.medicationId && l.scheduledTime == Some(dose)
    ensures MakeEvent(s, dose, x, logs, now) in GenerateEvents(schedules, reminders, logs, now)
    ensures MakeEvent(s, dose, x, logs, now).isTaken && !MakeEvent(s, dose, x, logs, now).isOverdue
  {
    GenerateEventsExact(schedules, reminders, logs, now);
    assert Derived(MakeEvent(s, dose, x, logs, now), schedules, reminders, logs, now);
  }
}

=== FILE: schedule_engine.dfy ===
/** services/schedule_engine.py: expanding schedules into dose datetimes and
    the three queries built on that expansion. `datetime.now()` is the
    parameter `now`; the repositories are sequences in storage order. */
module ScheduleEngine {
  import opened Wrappers
  import opened Clock
  import opened Seqs
  import opened Records

  /** The doses of one calendar day, in the order of `times`. */
  function DosesOn(day: int, times: seq<TimeOfDay>): seq<int>
  {
    seq(|times|, i requires 0 <= i < |times| => Combine(day, times[i]))
  }

  /** The list the expansion loop builds before sorting: every day from
      `first` to `last` inclusive, each contributing its doses in turn. */
  function DosesBetween(first: int, last: int, times: seq<TimeOfDay>): seq<int>
    decreases last - first + 1
  {
    if first > last then [] else DosesOn(first, times) + DosesBetween(first + 1, last, times)
  }

  function Identity(x: int): int
  {
    x
  }

  /** Every dose the loop builds lies in the date range at one of the times. */
  lemma {:induction false} DosesBetweenSound(first: int, last: int, times: seq<TimeOfDay>)
    ensures forall x :: x in DosesBetween(first, last, times) ==>
      first <= DateOf(x) <= last && TimeOf(x) in times
    decreases last - first + 1
  {
    if first <= last {
      DosesBetweenSound(first + 1, last, times);
      forall x | x in DosesOn(first, times)
        ensures DateOf(x) == first && TimeOf(x) in times
      {
        var i :| 0 <= i < |times| && x == Combine(first, times[i]);
        CombineSplits(first, times[i]);
      }
    }
  }

  /** Every (day, time) combination in range is built by the loop. */
  lemma {:induction false} DosesBetweenComplete(first: int, last: int, times: seq<TimeOfDay>, d: int, t: TimeOfDay)
    requires first <= d <= last && t in times
    ensures Combine(d, t) in DosesBetween(first, last, times)
    decreases last - first + 1
  {
    if d == first {
      var i :| 0 <= i < |times| && times[i] == t;
      assert DosesOn(first, times)[i] == Combine(d, t);
    } else {
      DosesBetweenComplete(first + 1, last, times, d, t);
    }
  }

  /** The number of doses over the days `first..last` at `perDay` doses a
      day: `(last - first + 1) * perDay`, and none for an inverted range. */
  function DoseCount(first: int, last: int, perDay: nat): nat
  {
    if first <= last then (last - first + 1) * perDay else 0
  }

  lemma {:induction false} DosesBetweenLength(first: int, last: int, times: seq<TimeOfDay>)
    ensures |DosesBetween(first, last, times)| == DoseCount(first, last, |times|)
    decreases last - first + 1
  {
    if first <= last {
      DosesBetweenLength(first + 1, last, times);
      var n := last - first;
      assert (n + 1) * |times| == |times| + n * |times|;
    }
  }

  lemma {:induction false} DosesBetweenNoDup(first: int, last: int, times: seq<TimeOfDay>)
    requires NoDup(times)
    ensures NoDup(DosesBetween(first, last, times))
    decreases last - first + 1
  {
    if first <= last {
      var head, tail := DosesOn(first, times), DosesBetween(first + 1, last, times);
      DosesBetweenNoDup(first + 1, last, times);
      DosesBetweenSound(first + 1, last, times);
      var all := head + tail;
      forall i, j | 0 <= i < j < |all|
        ensures all[i] != all[j]
      {
        if j < |head| {
          CombineInjective(first, times[i], first, times[j]);
        } else if i < |head| {
          assert all[i] == Combine(first, times[i]);
          CombineSplits(first, times[i]);
          assert all[j] in tail;
        } else {
          assert all[i] == tail[i - |head|] && all[j] == tail[j - |head|];
        }
      }
    }
  }

  /** `generate_dose_events`: the sorted doses of a bounded schedule; an
      open-ended schedule yields none. Exactly the combinations of a day in
      `[start_date, end_date]` with one of `times` appear. */
  function GenerateDoseEvents(s: Schedule): (r: seq<int>)
    ensures s.endDate.None? ==> r == []
    ensures SortedBy(r, Identity)
    ensures forall x :: x in r ==>
      s.endDate.Some? && s.startDate <= DateOf(x) <= s.endDate.value && TimeOf(x) in s.times
    ensures forall d, t :: s.endDate.Some? && s.startDate <= d <= s.endDate.value && t in s.times ==>
      Combine(d, t) in r
  {
    if s.endDate.None? then []
    else
      var raw := DosesBetween(s.startDate, s.endDate.value, s.times);
      DosesBetweenSound(s.startDate, s.endDate.value, s.times);
      var r := SortBy(raw, Identity);
      assert forall x :: x in r <==> x in raw by {
        forall x ensures x in r <==> x in raw {
          assert x in r <==> x in multiset(r);
          assert x in raw <==> x in multiset(raw);
        }
      }
      assert forall d, t :: s.startDate <= d <= s.endDate.value && t in s.times ==> Combine(d, t) in raw by {
        forall d, t | s.startDate <= d <= s.endDate.value && t in s.times
          ensures Combine(d, t) in raw
        {
          DosesBetweenComplete(s.startDate, s.endDate.value, s.times, d, t);
        }
      }
      r
  }

  /** One dose per day and time: `(end - start + 1) * |times|` doses for a
      non-empty range, none for an inverted one. */
  lemma ExpansionLength(s: Schedule)
    requires s.endDate.Some?
    ensures |GenerateDoseEvents(s)| == DoseCount(s.startDate, s.endDate.value, |s.times|)
  {
    var raw := DosesBetween(s.startDate, s.endDate.value, s.times);
    assert GenerateDoseEvents(s) == SortBy(raw, Identity);
    DosesBetweenLength(s.startDate, s.endDate.value, s.times);
  }

  /** With distinct times every combination appears exactly once, so the
      doses are strictly increasing. */
  lemma ExpansionStrictlyIncreasing(s: Schedule)
    requires NoDup(s.times)
    ensures forall i, j :: 0 <= i < j < |GenerateDoseEvents(s)| ==>
      GenerateDoseEvents(s)[i] < GenerateDoseEvents(s)[j]
  {
    var r := GenerateDoseEvents(s);
    if s.endDate.Some? {
      var raw := DosesBetween(s.startDate, s.endDate.value, s.times);
      DosesBetweenNoDup(s.startDate, s.endDate.value, s.times);
      assert r == SortBy(raw, Identity);
      PermutationKeepsNoDup(raw, r);
      SortedNoDupIncreasing(r);
    }
  }

  lemma SortedNoDupIncreasing(r: seq<int>)
    requires SortedBy(r, Identity) && NoDup(r)
    ensures forall i, j :: 0 <= i < j < |r| ==> r[i] < r[j]
  {
    forall i, j | 0 <= i < j < |r| ensures r[i] < r[j] {
      assert Identity(r[i]) <= Identity(r[j]);
    }
  }

  /** The expansion never reads `frequency` or `days_of_week`. */
  lemma ExpansionIgnoresRecurrence(s: Schedule, frequency: string, days: seq<DayEntry>)
    ensures GenerateDoseEvents(s.(frequency := frequency, daysOfWeek := days)) == GenerateDoseEvents(s)
  {
  }

  /** tests/test_schedule_engine.py: 08:00 and 20:00 on a one-day schedule. */
  lemma ExpansionExample(s: Schedule)
    requires s.times == [8 * 3600, 20 * 3600]
    requires s.endDate == Some(s.startDate)
    ensures GenerateDoseEvents(s) == [Combine(s.startDate, 8 * 3600), Combine(s.startDate, 20 * 3600)]
  {
    var a, b := Combine(s.startDate, 8 * 3600), Combine(s.startDate, 20 * 3600);
    var r := GenerateDoseEvents(s);
    assert s.times[0] != s.times[1];
    ExpansionLength(s);
    ExpansionStrictlyIncreasing(s);
    assert a in r && b in r;
    assert |r| == 2;
    assert a < b;
  }

  /** The doses of a list of schedules, schedule by schedule. */
  function DosesOfAll(schedules: seq<Schedule>): (r: seq<int>)
    ensures forall x :: x in r <==> exists s :: s in schedules && x in GenerateDoseEvents(s)
  {
    if |schedules| == 0 then []
    else
      var r := GenerateDoseEvents(schedules[0]) + DosesOfAll(schedules[1..]);
      assert forall s :: s in schedules <==> s == schedules[0] || s in schedules[1..];
      r
  }

  /** `x` is a dose of one of the medication's schedules. */
  ghost predicate IsDoseOf(repo: seq<Schedule>, medicationId: string, x: int)
  {
    exists s :: s in repo && s.medicationId == medicationId && x in GenerateDoseEvents(s)
  }

  /** The loop of `get_next_dose` collecting doses after `now`. */
  function UpcomingDoses(repo: seq<Schedule>, medicationId: string, now: int): (r: seq<int>)
    ensures forall x :: x in r <==> IsDoseOf(repo, medicationId, x) && now < x
  {
    var mine := SchedulesOf(repo, medicationId);
    var all := DosesOfAll(mine);
    assert forall x :: x in all <==> IsDoseOf(repo, medicationId, x) by {
      forall x ensures x in all <==> IsDoseOf(repo, medicationId, x) {
        if IsDoseOf(repo, medicationId, x) {
          var s :| s in repo && s.medicationId == medicationId && x in GenerateDoseEvents(s);
          assert s in mine;
        }
      }
    }
    Filter(all, (x: int) => now < x)
  }

  /** `get_next_dose`: the earliest dose strictly after `now` among the
      medication's schedules, or `None` when no dose is still to come. */
  function GetNextDose(repo: seq<Schedule>, medicationId: string, now: int): (r: Option<int>)
    ensures r.None? <==> forall x :: IsDoseOf(repo, medicationId, x) ==> x <= now
    ensures r.Some? ==> now < r.value && IsDoseOf(repo, medicationId, r.value)
    ensures r.Some? ==> forall x :: IsDoseOf(repo, medicationId, x) && now < x ==> r.value <= x
  {
    var upcoming := UpcomingDoses(repo, medicationId, now);
    if |upcoming| == 0 then None else Some(Min(upcoming))
  }

  /** A dose paired with the medication it belongs to. */
  datatype MedicationDose = MedicationDose(medication: Medication, at: int)

  function DoseTime(p: MedicationDose): int
  {
    p.at
  }

  /** Each dose paired with the medication, in dose order. */
  function Tagged(med: Medication, doses: seq<int>): (r: seq<MedicationDose>)
    ensures forall p :: p in r <==> p.medication == med && p.at in doses
  {
    if |doses| == 0 then []
    else [MedicationDose(med, doses[0])] + Tagged(med, doses[1..])
  }

  /** The doses of one medication, schedule by schedule; none for a
      medication whose id is `None`. */
  function DosesOfMedication(med: Medication, repo: seq<Schedule>): (r: seq<MedicationDose>)
    ensures forall p :: p in r <==> (p.medication == med && med.id.Some? &&
      exists s :: s in repo && s.medicationId == med.id.value && p.at in GenerateDoseEvents(s))
  {
    if med.id.None? then []
    else Tagged(med, DosesOfAll(SchedulesOf(repo, med.id.value)))
  }

  /** The loop shared by `get_today_schedule` and `get_overdue_doses`:
      medication by medication, the doses of its schedules. */
  function DosesByMedication(meds: seq<Medication>, repo: seq<Schedule>): (r: seq<MedicationDose>)
    ensures forall p :: p in r <==> (p.medication in meds && p.medication.id.Some? &&
      exists s :: s in repo && s.medicationId == p.medication.id.value && p.at in GenerateDoseEvents(s))
  {
    if |meds| == 0 then []
    else
      var r := DosesOfMedication(meds[0], repo) + DosesByMedication(meds[1..], repo);
      assert forall m :: m in meds <==> m == meds[0] || m in meds[1..];
      r
  }

  /** `get_today_schedule`: the doses dated today, sorted by time, each
      occurring as often as the loop produces it. */
  function GetTodaySchedule(meds: seq<Medication>, repo: seq<Schedule>, now: int): (r: seq<MedicationDose>)
    ensures SortedBy(r, DoseTime)
    ensures forall p :: p in r <==> p in DosesByMedication(meds, repo) && DateOf(p.at) == DateOf(now)
    ensures forall p :: multiset(r)[p] ==
                        if DateOf(p.at) == DateOf(now) then multiset(DosesByMedication(meds, repo))[p] else 0
  {
    var today := Filter(DosesByMedication(meds, repo), IsToday(now));
    var r := SortBy(today, DoseTime);
    SameElements(r, today);
    r
  }

  /** The test "dated on the day of `now`". */
  function IsToday(now: int): MedicationDose -> bool
  {
    (p: MedicationDose) => DateOf(p.at) == DateOf(now)
  }

  /** The sort in `get_today_schedule` is stable: today's doses at any one
      time come in the order the loop produced them. */
  lemma GetTodayScheduleStable(meds: seq<Medication>, repo: seq<Schedule>, now: int, t: int)
    ensures Filter(GetTodaySchedule(meds, repo, now), KeyIs(DoseTime, t)) ==
            Filter(Filter(DosesByMedication(meds, repo), IsToday(now)), KeyIs(DoseTime, t))
  {
    SortByStable(Filter(DosesByMedication(meds, repo), IsToday(now)), DoseTime, t);
  }

  /** `get_overdue_doses`: the doses strictly before `now`, in loop order,
      whether or not they were taken. */
  function GetOverdueDoses(meds: seq<Medication>, repo: seq<Schedule>, now: int): (r: seq<MedicationDose>)
    ensures forall p :: p in r <==> p in DosesByMedication(meds, repo) && p.at < now
    ensures forall p :: multiset(r)[p] ==
                        if p.at < now then multiset(DosesByMedication(meds, repo))[p] else 0
  {
    Filter(DosesByMedication(meds, repo), (p: MedicationDose) => p.at < now)
  }
}

=== FILE: schedule_service.dfy ===
/** services/schedule_service.py: the minute-granular due-reminder check.

    The check compares the weekday NAME of `now` ("Mon", "Tue", ...) with the
    entries of `days_of_week`, which the rest of the application fills with
    weekday indices. `GetDueReminders` keeps that comparison as written;
    `GetDueRemindersCorrected` compares the weekday index instead and treats an
    empty list as "every day". */
module ScheduleService {
  import opened Wrappers
  import opened Clock
  import opened Seqs
  import opened Records

  /** The position of the last schedule with this id, or -1. */
  function LastWithId(schedules: seq<Schedule>, id: string): (i: int)
    ensures -1 <= i < |schedules|
    ensures i >= 0 ==> schedules[i].id == id
    ensures forall j :: i < j < |schedules| ==> schedules[j].id != id
  {
    if |schedules| == 0 then -1
    else if schedules[|schedules| - 1].id == id then |schedules| - 1
    else
      var init := schedules[..|schedules| - 1];
      var i := LastWithId(init, id);
      assert forall j :: i < j < |init| ==> schedules[j] == init[j];
      i
  }

  /** `{s.id: s for s in schedules}.get(id)`: when ids repeat, the last
      schedule with that id wins. */
  function LookupSchedule(schedules: seq<Schedule>, id: string): (r: Option<Schedule>)
    ensures r.None? <==> forall s :: s in schedules ==> s.id != id
    ensures r.Some? ==> r.value in schedules
    ensures r.Some? ==> exists i :: 0 <= i < |schedules| && schedules[i] == r.value && r.value.id == id &&
                          forall j :: i < j < |schedules| ==> schedules[j].id != id
  {
    var i := LastWithId(schedules, id);
    if i < 0 then None else Some(schedules[i])
  }

  /** How `days_of_week` is consulted. */
  datatype WeekdayTest = ByName | ByIndex

  /** Whether the schedule lets a reminder fire on `today`.
      `ByName` is the membership test as written; `ByIndex` is the corrected
      one. */
  predicate DayAllowed(test: WeekdayTest, days: seq<DayEntry>, today: int)
  {
    match test
    case ByName => Name(DayAbbrev(Weekday(today))) in days
    case ByIndex => |days| == 0 || Index(Weekday(today)) in days
  }

  /** `combine(today, t) - offset` shows the same `%H:%M` as `now`. */
  predicate MinuteMatches(t: TimeOfDay, offsetMinutes: int, today: int, now: int)
  {
    FormatHM(MinusMinutes(Combine(today, t), offsetMinutes)) == FormatHM(now)
  }

  /** The loop over a schedule's times: one copy of the reminder for every
      time whose reminder minute is now's minute of day. */
  function Firings(reminder: Reminder, times: seq<TimeOfDay>, today: int, now: int): (r: seq<Reminder>)
    ensures forall x :: x in r ==> x == reminder
    ensures |r| == |Filter(times, (t: TimeOfDay) =>
                   MinuteOfDay(MinusMinutes(Combine(today, t), reminder.offsetMinutes)) == MinuteOfDay(now))|
  {
    if |times| == 0 then []
    else
      FormatHMSameMinute(MinusMinutes(Combine(today, times[0]), reminder.offsetMinutes), now);
      (if MinuteMatches(times[0], reminder.offsetMinutes, today, now) then [reminder] else [])
        + Firings(reminder, times[1..], today, now)
  }

  /** The filters applied to one reminder, in the order of the source. */
  function ForReminder(test: WeekdayTest, reminder: Reminder, schedules: seq<Schedule>, now: int): seq<Reminder>
  {
    var today := DateOf(now);
    if !reminder.enabled then []
    else match LookupSchedule(schedules, reminder.scheduledId)
      case None => []
      case Some(s) =>
        if !s.isActive then []
        else if s.startDate > today then []
        else if s.endDate.Some? && s.endDate.value < today then []
        else if !DayAllowed(test, s.daysOfWeek, today) then []
        else Firings(reminder, s.times, today, now)
  }

  /** The gate a reminder passes before its times are compared. */
  ghost predicate Eligible(test: WeekdayTest, x: Reminder, schedules: seq<Schedule>, now: int)
  {
    && x.enabled
    && LookupSchedule(schedules, x.scheduledId).Some?
    && var s := LookupSchedule(schedules, x.scheduledId).value;
    && s.isActive
    && s.startDate <= DateOf(now)
    && (s.endDate.Some? ==> DateOf(now) <= s.endDate.value)
    && DayAllowed(test, s.daysOfWeek, DateOf(now))
  }

  /** `x` passes every gate and one of its schedule's times, moved back by
      the offset, falls in now's minute of day. */
  ghost predicate Fires(test: WeekdayTest, x: Reminder, schedules: seq<Schedule>, now: int)
  {
    && Eligible(test, x, schedules, now)
    && exists t :: t in LookupSchedule(schedules, x.scheduledId).value.times &&
         MinuteOfDay(MinusMinutes(Combine(DateOf(now), t), x.offsetMinutes)) == MinuteOfDay(now)
  }

  /** The time loop yields the reminder exactly when one of the times, moved
      back by the offset, falls in now's minute of day. */
  lemma {:induction false} FiringsExact(reminder: Reminder, times: seq<TimeOfDay>, today: int, now: int)
    ensures forall x :: x in Firings(reminder, times, today, now) <==>
      x == reminder && exists t :: t in times && MinuteOfDay(MinusMinutes(Combine(today, t), reminder.offsetMinutes)) == MinuteOfDay(now)
  {
    if |times| > 0 {
      FiringsExact(reminder, times[1..], today, now);
      FormatHMSameMinute(MinusMinutes(Combine(today, times[0]), reminder.offsetMinutes), now);
      assert forall t :: t in times <==> t == times[0] || t in times[1..];
    }
  }

  /** `ForReminder` is the time loop behind the gate. */
  lemma ForReminderGate(test: WeekdayTest, y: Reminder, schedules: seq<Schedule>, now: int)
    ensures ForReminder(test, y, schedules, now) ==
      if Eligible(test, y, schedules, now)
      then Firings(y, LookupSchedule(schedules, y.scheduledId).value.times, DateOf(now), now)
      else []
  {
  }

  /** One reminder yields copies of itself, and some exactly when it fires. */
  lemma ForReminderExact(test: WeekdayTest, y: Reminder, schedules: seq<Schedule>, now: int)
    ensures forall x :: x in ForReminder(test, y, schedules, now) <==> x == y && Fires(test, y, schedules, now)
  {
    ForReminderGate(test, y, schedules, now);
    if Eligible(test, y, schedules, now) {
      FiringsExact(y, LookupSchedule(schedules, y.scheduledId).value.times, DateOf(now), now);
    }
  }

  /** Exactly the firing reminders are returned. */
  lemma {:induction false} DueWithExact(test: WeekdayTest, reminders: seq<Reminder>, schedules: seq<Schedule>, now: int)
    ensures forall x :: x in DueWith(test, reminders, schedules, now) <==> x in reminders && Fires(test, x, schedules, now)
  {
    if |reminders| > 0 {
      DueWithExact(test, reminders[1..], schedules, now);
      ForReminderExact(test, reminders[0], schedules, now);
      assert forall x :: x in reminders <==> x == reminders[0] || x in reminders[1..];
    }
  }

  /** The loop over the reminders, in repository order. */
  function DueWith(test: WeekdayTest, reminders: seq<Reminder>, schedules: seq<Schedule>, now: int): seq<Reminder>
  {
    if |reminders| == 0 then []
    else ForReminder(test, reminders[0], schedules, now) + DueWith(test, reminders[1..], schedules, now)
  }

  /** `get_due_reminders` as written: exactly the enabled reminders of a
      present, active schedule whose date window contains today, whose
      `days_of_week` contains today's weekday name, and one of whose times
      falls in now's minute after the offset. */
  function GetDueReminders(reminders: seq<Reminder>, schedules: seq<Schedule>, now: int): (r: seq<Reminder>)
    ensures forall x :: x in r <==> x in reminders && Fires(ByName, x, schedules, now)
  {
    DueWithExact(ByName, reminders, schedules, now);
    DueWith(ByName, reminders, schedules, now)
  }

  /** `get_due_reminders` with the weekday compared by index, an empty list
      allowing every day. */
  function GetDueRemindersCorrected(reminders: seq<Reminder>, schedules: seq<Schedule>, now: int): (r: seq<Reminder>)
    ensures forall x :: x in r <==> x in reminders && Fires(ByIndex, x, schedules, now)
  {
    DueWithExact(ByIndex, reminders, schedules, now);
    DueWith(ByIndex, reminders, schedules, now)
  }

  /** As written, a schedule whose weekdays are indices never lets a
      reminder fire: the list of indices never contains a day name. */
  lemma {:induction false} IndexWeekdaysNeverFire(reminders: seq<Reminder>, schedules: seq<Schedule>, now: int)
    requires forall s, e :: s in schedules && e in s.daysOfWeek ==> e.Index?
    ensures GetDueReminders(reminders, schedules, now) == []
  {
    if |reminders| > 0 {
      IndexWeekdaysNeverFire(reminders[1..], schedules, now);
      match LookupSchedule(schedules, reminders[0].scheduledId)
      case None =>
      case Some(s) =>
        NameNotAmongIndices(s.daysOfWeek, DayAbbrev(Weekday(DateOf(now))));
    }
  }

  lemma NameNotAmongIndices(days: seq<DayEntry>, name: string)
    requires forall e :: e in days ==> e.Index?
    ensures Name(name) !in days
  {
  }

  /** The reminder loop is a flat map over the reminders. */
  lemma {:induction false} DueWithFlat(test: WeekdayTest, reminders: seq<Reminder>, schedules: seq<Schedule>, now: int)
    ensures DueWith(test, reminders, schedules, now) ==
      FlatMap(reminders, (x: Reminder) => ForReminder(test, x, schedules, now))
  {
    if |reminders| > 0 {
      DueWithFlat(test, reminders[1..], schedules, now);
    }
  }

  /** The output follows the order of the reminder repository: the result
      for a concatenation is the concatenation of the results. */
  lemma {:induction false} DueFollowsReminderOrder(test: WeekdayTest, a: seq<Reminder>, b: seq<Reminder>, schedules: seq<Schedule>, now: int)
    ensures DueWith(test, a + b, schedules, now) == DueWith(test, a, schedules, now) + DueWith(test, b, schedules, now)
  {
    DueWithFlat(test, a + b, schedules, now);
    DueWithFlat(test, a, schedules, now);
    DueWithFlat(test, b, schedules, now);
    FlatMapConcat(a, b, (x: Reminder) => ForReminder(test, x, schedules, now));
  }

  /** Only the minute containing `now` matters: any two instants of the same
      minute give the same result. */
  lemma {:induction false} SameMinuteSameResult(test: WeekdayTest, reminders: seq<Reminder>, schedules: seq<Schedule>, now: int, now': int)
    requires now / SecondsPerMinute == now' / SecondsPerMinute
    ensures DueWith(test, reminders, schedules, now) == DueWith(test, reminders, schedules, now')
  {
    MinuteDetermines(now);
    MinuteDetermines(now');
    FormatHMSameMinute(now, now');
    if |reminders| > 0 {
      SameMinuteSameResult(test, reminders[1..], schedules, now, now');
      var x := reminders[0];
      match LookupSchedule(schedules, x.scheduledId)
      case None =>
      case Some(s) => FiringsSameMinute(x, s.times, DateOf(now), now, now');
    }
  }

  lemma {:induction false} FiringsSameMinute(reminder: Reminder, times: seq<TimeOfDay>, today: int, now: int, now': int)
    requires FormatHM(now) == FormatHM(now')
    ensures Firings(reminder, times, today, now) == Firings(reminder, times, today, now')
  {
    if |times| > 0 {
      FiringsSameMinute(reminder, times[1..], today, now, now');
    }
  }

  /** Offsets reaching back past midnight wrap around: a 00:10 dose with a
      20-minute offset fires at 23:50 of the same calendar day. */
  lemma MidnightWrap(reminder: Reminder, today: int)
    requires reminder.offsetMinutes == 20
    ensures Firings(reminder, [10 * 60], today, Combine(today, 23 * 3600 + 50 * 60)) == [reminder]
  {
    var dt := MinusMinutes(Combine(today, 10 * 60), 20);
    assert dt == Combine(today - 1, 23 * 3600 + 50 * 60);
    CombineSplits(today - 1, 23 * 3600 + 50 * 60);
    CombineSplits(today, 23 * 3600 + 50 * 60);
    FormatHMSameMinute(dt, Combine(today, 23 * 3600 + 50 * 60));
  }

  /** The reminder of a weekly schedule listing today's weekday index, at a
      time in the current minute: the check as written drops it, the
      corrected check returns it. */
  lemma WeekdayFinding(reminder: Reminder, s: Schedule, now: int)
    requires reminder.enabled && reminder.scheduledId == s.id && reminder.offsetMinutes == 0
    requires s.isActive && s.startDate == DateOf(now) && s.endDate == Some(DateOf(now))
    requires s.daysOfWeek == [Index(Weekday(DateOf(now)))]
    requires s.times == [TimeOf(now)]
    ensures GetDueReminders([reminder], [s], now) == []
    ensures GetDueRemindersCorrected([reminder], [s], now) == [reminder]
  {
    assert LookupSchedule([s], reminder.scheduledId) == Some(s);
    assert [reminder][1..] == [];
    SplitCombines(now);
    assert MinuteMatches(TimeOf(now), 0, DateOf(now), now);
    assert Firings(reminder, s.times, DateOf(now), now) == [reminder];
    assert !DayAllowed(ByName, s.daysOfWeek, DateOf(now));
    assert DayAllowed(ByIndex, s.daysOfWeek, DateOf(now));
    assert ForReminder(ByName, reminder, [s], now) == [];
    assert ForReminder(ByIndex, reminder, [s], now) == [reminder];
    assert DueWith(ByName, [reminder], [s], now) == ForReminder(ByName, reminder, [s], now);
    assert DueWith(ByIndex, [reminder], [s], now) == ForReminder(ByIndex, reminder, [s], now);
  }

  /** A single reminder: when it passes every gate it fires once for each of
      its schedule's times in the current minute, and otherwise not at all.
      With `ByName` this is `GetDueReminders`, with `ByIndex` the corrected
      check. */
  lemma {:induction false} FiresWhenEligible(test: WeekdayTest, reminder: Reminder, schedules: seq<Schedule>, now: int)
    ensures Eligible(test, reminder, schedules, now) ==>
      var s := LookupSchedule(schedules, reminder.scheduledId).value;
      DueWith(test, [reminder], schedules, now) == Firings(reminder, s.times, DateOf(now), now)
    ensures !Eligible(test, reminder, schedules, now) ==> DueWith(test, [reminder], schedules, now) == []
  {
    assert [reminder][1..] == [];
    assert DueWith(test, [reminder], schedules, now) == ForReminder(test, reminder, schedules, now);
  }
}

=== FILE: schedule_validator.dfy ===
/** validators/schedule_validator.py: the checks on a schedule, run in the
    order times, dates, frequency, weekdays; the first failing one decides
    the error. Type checks (`isinstance`) hold by construction here. */
module ScheduleValidator {
  import opened Wrappers
  import opened Clock
  import opened Seqs
  import opened Records

  datatype ScheduleError =
    | NoTimes
    | DuplicateTimes
    | StartAfterEnd
    | InvalidFrequency(frequency: string)
    | MissingDaysOfWeek
    | InvalidDayOfWeek(entry: DayEntry)

  const AllowedFrequencies: set<string> := {"daily", "weekly", "custom"}

  /** `len(set(times))`. */
  function DistinctCount(times: seq<TimeOfDay>): nat
  {
    |TimeSet(times)|
  }

  function TimeSet(times: seq<TimeOfDay>): set<TimeOfDay>
  {
    set t | t in times
  }

  /** The set of a sequence is never larger than the sequence, and is as
      large exactly when no element repeats. */
  lemma {:induction false} DistinctCountNoDup(times: seq<TimeOfDay>)
    ensures DistinctCount(times) <= |times|
    ensures DistinctCount(times) == |times| <==> NoDup(times)
  {
    if |times| > 0 {
      var tail := times[1..];
      DistinctCountNoDup(tail);
      var whole, rest := TimeSet(times), TimeSet(tail);
      assert whole == rest + {times[0]} by {
        assert forall t :: t in times <==> t == times[0] || t in tail;
      }
      assert DistinctCount(times) == |whole| && DistinctCount(tail) == |rest|;
      if times[0] in rest {
        assert whole == rest;
      } else {
        assert |whole| == |rest| + 1;
      }
      assert NoDup(times) <==> times[0] !in tail && NoDup(tail) by {
        if NoDup(times) {
          forall i, j | 0 <= i < j < |tail| ensures tail[i] != tail[j] {
            assert tail[i] == times[i + 1] && tail[j] == times[j + 1];
          }
        }
        if times[0] !in tail && NoDup(tail) {
          forall i, j | 0 <= i < j < |times| ensures times[i] != times[j] {
            if i == 0 {
              assert times[j] == tail[j - 1];
            } else {
              assert times[i] == tail[i - 1] && times[j] == tail[j - 1];
            }
          }
        }
      }
    }
  }

  /** `_validate_times`. */
  function CheckTimes(times: seq<TimeOfDay>): (r: Outcome<ScheduleError>)
    ensures r == Pass <==> |times| > 0 && NoDup(times)
    ensures r == Fail(NoTimes) <==> |times| == 0
    ensures r == Fail(DuplicateTimes) <==> |times| > 0 && !NoDup(times)
  {
    DistinctCountNoDup(times);
    if |times| == 0 then Fail(NoTimes)
    else if |times| > DistinctCount(times) then Fail(DuplicateTimes)
    else Pass
  }

  /** `_validate_dates`: an open end always passes. */
  function CheckDates(startDate: int, endDate: Option<int>): (r: Outcome<ScheduleError>)
    ensures r == Pass <==> endDate.None? || startDate <= endDate.value
    ensures r.Fail? ==> r.error == StartAfterEnd
  {
    if endDate.Some? && startDate > endDate.value then Fail(StartAfterEnd) else Pass
  }

  /** `_validate_frequency`. */
  function CheckFrequency(frequency: string): (r: Outcome<ScheduleError>)
    ensures r == Pass <==> frequency == "daily" || frequency == "weekly" || frequency == "custom"
    ensures r.Fail? ==> r.error == InvalidFrequency(frequency)
  {
    if frequency !in AllowedFrequencies then Fail(InvalidFrequency(frequency)) else Pass
  }

  /** `d in range(7)`: only the indices 0..6 qualify; a name never does. */
  predicate ValidDay(e: DayEntry)
  {
    e.Index? && 0 <= e.index < 7
  }

  /** The entry the loop of `_validate_days_of_week` raises on. */
  function FirstInvalidDay(days: seq<DayEntry>): (r: Option<DayEntry>)
    ensures r.None? <==> forall e :: e in days ==> ValidDay(e)
    ensures r.Some? ==> exists i :: 0 <= i < |days| && days[i] == r.value && !ValidDay(r.value) &&
                          forall j :: 0 <= j < i ==> ValidDay(days[j])
  {
    if |days| == 0 then None
    else if !ValidDay(days[0]) then Some(days[0])
    else
      var r := FirstInvalidDay(days[1..]);
      assert forall e :: e in days <==> e == days[0] || e in days[1..];
      assert r.Some? ==> exists i :: 0 <= i < |days| && days[i] == r.value && !ValidDay(r.value) &&
                           forall j :: 0 <= j < i ==> ValidDay(days[j]) by {
        if r.Some? {
          var i :| 0 <= i < |days| - 1 && days[1..][i] == r.value && !ValidDay(r.value) &&
                   forall j :: 0 <= j < i ==> ValidDay(days[1..][j]);
          assert days[i + 1] == r.value;
          forall j | 0 <= j < i + 1 ensures ValidDay(days[j]) {
            if j > 0 { assert days[j] == days[1..][j - 1]; }
          }
        }
      }
      r
  }

  /** `_validate_days_of_week`: only weekly schedules are checked. */
  function CheckDaysOfWeek(frequency: string, days: seq<DayEntry>): (r: Outcome<ScheduleError>)
    ensures r == Pass <==> frequency != "weekly" || (|days| > 0 && forall e :: e in days ==> ValidDay(e))
    ensures r == Fail(MissingDaysOfWeek) <==> frequency == "weekly" && |days| == 0
    ensures r.Fail? && r.error.InvalidDayOfWeek? ==> Some(r.error.entry) == FirstInvalidDay(days)
  {
    if frequency != "weekly" then Pass
    else if |days| == 0 then Fail(MissingDaysOfWeek)
    else match FirstInvalidDay(days)
      case None => Pass
      case Some(e) => Fail(InvalidDayOfWeek(e))
  }

  /** The schedule invariant: at least one time and no repeated time, an
      end date not before the start date, a known frequency, and for weekly
      schedules a non-empty list of weekday indices in 0..6. */
  ghost predicate WellFormed(s: Schedule)
  {
    && |s.times| > 0
    && NoDup(s.times)
    && (s.endDate.Some? ==> s.startDate <= s.endDate.value)
    && s.frequency in AllowedFrequencies
    && (s.frequency == "weekly" ==> |s.daysOfWeek| > 0 && forall e :: e in s.daysOfWeek ==> ValidDay(e))
  }

  /** `ScheduleValidator.validate`. */
  function Validate(s: Schedule): (r: Outcome<ScheduleError>)
    ensures r == Pass <==> WellFormed(s)
    ensures r == Fail(NoTimes) <==> |s.times| == 0
    ensures r == Fail(DuplicateTimes) <==> |s.times| > 0 && !NoDup(s.times)
    ensures r == Fail(StartAfterEnd) <==>
      && |s.times| > 0 && NoDup(s.times)
      && s.endDate.Some? && s.startDate > s.endDate.value
    ensures r == Fail(InvalidFrequency(s.frequency)) <==>
      && |s.times| > 0 && NoDup(s.times)
      && (s.endDate.Some? ==> s.startDate <= s.endDate.value)
      && s.frequency !in AllowedFrequencies
    ensures r == Fail(MissingDaysOfWeek) <==>
      && |s.times| > 0 && NoDup(s.times)
      && (s.endDate.Some? ==> s.startDate <= s.endDate.value)
      && s.frequency == "weekly" && |s.daysOfWeek| == 0
    ensures r.Fail? && r.error.InvalidDayOfWeek? ==>
      && s.frequency == "weekly"
      && Some(r.error.entry) == FirstInvalidDay(s.daysOfWeek)
  {
    var times := CheckTimes(s.times);
    if times.Fail? then times
    else
      var dates := CheckDates(s.startDate, s.endDate);
      if dates.Fail? then dates
      else
        var frequency := CheckFrequency(s.frequency);
        if frequency.Fail? then frequency
        else CheckDaysOfWeek(s.frequency, s.daysOfWeek)
  }

  /** Frequencies other than "weekly" leave `days_of_week` unchecked. */
  lemma NonWeeklyIgnoresDays(s: Schedule, days: seq<DayEntry>)
    requires s.frequency != "weekly"
    ensures Validate(s.(daysOfWeek := days)) == Validate(s)
  {
  }
}

=== FILE: seqs.dfy ===
/** Sequence utilities standing in for Python list comprehensions, `sorted`
    and `min`. */
module Seqs {

  /** `[x for x in s if p(x)]`: order is kept, and every element keeps its
      multiplicity exactly when it satisfies `p`. */
  function Filter<T(!new)>(s: seq<T>, p: T -> bool): (r: seq<T>)
    ensures |r| <= |s|
    ensures forall x :: x in r <==> x in s && p(x)
    ensures forall x :: multiset(r)[x] == if p(x) then multiset(s)[x] else 0
  {
    if |s| == 0 then []
    else
      assert s == [s[0]] + s[1..];
      (if p(s[0]) then [s[0]] else []) + Filter(s[1..], p)
  }

  lemma {:induction false} FilterConcat<T(!new)>(a: seq<T>, b: seq<T>, p: T -> bool)
    ensures Filter(a + b, p) == Filter(a, p) + Filter(b, p)
  {
    if |a| == 0 {
      assert a + b == b;
    } else {
      assert (a + b)[0] == a[0];
      assert (a + b)[1..] == a[1..] + b;
      FilterConcat(a[1..], b, p);
    }
  }

  /** `[y for x in s for y in f(x)]`. */
  function FlatMap<T, U>(s: seq<T>, f: T -> seq<U>): seq<U>
  {
    if |s| == 0 then [] else f(s[0]) + FlatMap(s[1..], f)
  }

  lemma {:induction false} FlatMapConcat<T, U>(a: seq<T>, b: seq<T>, f: T -> seq<U>)
    ensures FlatMap(a + b, f) == FlatMap(a, f) + FlatMap(b, f)
  {
    if |a| == 0 {
      assert a + b == b;
    } else {
      assert (a + b)[0] == a[0];
      assert (a + b)[1..] == a[1..] + b;
      FlatMapConcat(a[1..], b, f);
    }
  }

  ghost predicate SortedBy<T>(s: seq<T>, key: T -> int)
  {
    forall i, j :: 0 <= i < j < |s| ==> key(s[i]) <= key(s[j])
  }

  ghost predicate NoDup<T>(s: seq<T>)
  {
    forall i, j :: 0 <= i < j < |s| ==> s[i] != s[j]
  }

  /** Inserts `x` before the first element whose key is not smaller. */
  function Insert<T>(x: T, s: seq<T>, key: T -> int): (r: seq<T>)
    ensures multiset(r) == multiset(s) + multiset{x}
    ensures |r| == |s| + 1
  {
    if |s| == 0 then [x]
    else if key(x) <= key(s[0]) then [x] + s
    else
      assert s == [s[0]] + s[1..];
      [s[0]] + Insert(x, s[1..], key)
  }

  lemma {:induction false} InsertSorted<T>(x: T, s: seq<T>, key: T -> int)
    requires SortedBy(s, key)
    ensures SortedBy(Insert(x, s, key), key)
  {
    if |s| > 0 && key(x) > key(s[0]) {
      var tail := s[1..];
      assert SortedBy(tail, key) by {
        forall i, j | 0 <= i < j < |tail|
          ensures key(tail[i]) <= key(tail[j])
        {
          assert tail[i] == s[i+1] && tail[j] == s[j+1];
        }
      }
      InsertSorted(x, tail, key);
      var rest := Insert(x, tail, key);
      forall k | 0 <= k < |rest|
        ensures key(s[0]) <= key(rest[k])
      {
        assert rest[k] in multiset(rest);
        if rest[k] != x {
          assert rest[k] in multiset(tail);
          var j :| 0 <= j < |tail| && tail[j] == rest[k];
          assert tail[j] == s[j+1];
        }
      }
      var r := Insert(x, s, key);
      assert r == [s[0]] + rest;
      forall i, j | 0 <= i < j < |r|
        ensures key(r[i]) <= key(r[j])
      {
        if i > 0 {
          assert r[i] == rest[i-1] && r[j] == rest[j-1];
        } else {
          assert r[j] == rest[j-1];
        }
      }
    }
  }

  /** Python's `sorted(s, key=key)`: an ascending permutation of `s`. */
  function SortBy<T>(s: seq<T>, key: T -> int): (r: seq<T>)
    ensures SortedBy(r, key)
    ensures multiset(r) == multiset(s)
    ensures |r| == |s|
  {
    if |s| == 0 then []
    else
      assert s == [s[0]] + s[1..];
      var rest := SortBy(s[1..], key);
      InsertSorted(s[0], rest, key);
      Insert(s[0], rest, key)
  }

  /** The test "has key `k`", as one value so that filters by it compare. */
  function KeyIs<T>(key: T -> int, k: int): T -> bool
  {
    (y: T) => key(y) == k
  }

  /** Filtering a sequence with a known first element. */
  lemma FilterCons<T(!new)>(a: T, u: seq<T>, p: T -> bool)
    ensures Filter([a] + u, p) == (if p(a) then [a] else []) + Filter(u, p)
  {
    assert ([a] + u)[0] == a && ([a] + u)[1..] == u;
  }

  /** `Insert` puts `x` after no element of its own key, and leaves the order
      of every other key alone. */
  lemma {:induction false} InsertKeepsKeyOrder<T(!new)>(x: T, t: seq<T>, key: T -> int, k: int)
    ensures Filter(Insert(x, t, key), KeyIs(key, k)) ==
      if key(x) == k then [x] + Filter(t, KeyIs(key, k)) else Filter(t, KeyIs(key, k))
  {
    if |t| == 0 || key(x) <= key(t[0]) {
      InsertAtHead(x, t, key);
      FilterCons(x, t, KeyIs(key, k));
    } else {
      InsertKeepsKeyOrder(x, t[1..], key, k);
      InsertPastHead(x, t, key);
      if key(x) == k {
        InsertPastHeadSameKey(x, t[0], t[1..], Insert(x, t[1..], key), KeyIs(key, k));
      } else {
        InsertPastHeadOtherKey(t[0], t[1..], Insert(x, t[1..], key), KeyIs(key, k));
      }
    }
  }

  lemma InsertAtHead<T>(x: T, t: seq<T>, key: T -> int)
    requires |t| == 0 || key(x) <= key(t[0])
    ensures Insert(x, t, key) == [x] + t
  {
  }

  lemma InsertPastHead<T>(x: T, t: seq<T>, key: T -> int)
    requires |t| > 0 && key(x) > key(t[0])
    ensures Insert(x, t, key) == [t[0]] + Insert(x, t[1..], key)
    ensures t == [t[0]] + t[1..]
  {
  }

  lemma InsertPastHeadSameKey<T(!new)>(x: T, h: T, u: seq<T>, rest: seq<T>, p: T -> bool)
    requires !p(h)
    requires Filter(rest, p) == [x] + Filter(u, p)
    ensures Filter([h] + rest, p) == [x] + Filter([h] + u, p)
  {
    FilterCons(h, rest, p);
    FilterCons(h, u, p);
  }

  lemma InsertPastHeadOtherKey<T(!new)>(h: T, u: seq<T>, rest: seq<T>, p: T -> bool)
    requires Filter(rest, p) == Filter(u, p)
    ensures Filter([h] + rest, p) == Filter([h] + u, p)
  {
    FilterCons(h, rest, p);
    FilterCons(h, u, p);
  }

  /** `SortBy` is stable: the elements of any one key keep their input
      order, as Python's `sorted` guarantees. */
  lemma {:induction false} SortByStable<T(!new)>(s: seq<T>, key: T -> int, k: int)
    ensures Filter(SortBy(s, key), KeyIs(key, k)) == Filter(s, KeyIs(key, k))
  {
    if |s| > 0 {
      SortByStable(s[1..], key, k);
      InsertKeepsKeyOrder(s[0], SortBy(s[1..], key), key, k);
    }
  }

  /** Two permutations of each other hold the same elements. */
  lemma SameElements<T>(a: seq<T>, b: seq<T>)
    requires multiset(a) == multiset(b)
    ensures forall x :: x in a <==> x in b
  {
    forall x ensures x in a <==> x in b {
      assert x in a <==> x in multiset(a);
      assert x in b <==> x in multiset(b);
    }
  }

  /** A permutation of a duplicate-free sequence is duplicate-free. */
  lemma {:induction false} PermutationKeepsNoDup<T>(s: seq<T>, t: seq<T>)
    requires multiset(s) == multiset(t)
    requires NoDup(s)
    ensures NoDup(t)
  {
    forall i, j | 0 <= i < j < |t|
      ensures t[i] != t[j]
    {
      if t[i] == t[j] {
        assert t == t[..i] + [t[i]] + t[i+1..j] + [t[j]] + t[j+1..];
        assert multiset(t)[t[i]] >= 2;
        NoDupCount(s, t[i]);
        assert false;
      }
    }
  }

  lemma {:induction false} NoDupCount<T>(s: seq<T>, x: T)
    requires NoDup(s)
    ensures multiset(s)[x] <= 1
  {
    if |s| > 0 {
      assert s == [s[0]] + s[1..];
      assert NoDup(s[1..]) by {
        forall i, j | 0 <= i < j < |s| - 1
          ensures s[1..][i] != s[1..][j]
        {
          assert s[1..][i] == s[i+1] && s[1..][j] == s[j+1];
        }
      }
      NoDupCount(s[1..], x);
      if s[0] == x {
        assert x !in s[1..];
      }
    }
  }

  /** Python's `min(s, key=key)`: the index of the FIRST element of least key. */
  function FirstMinBy<T>(s: seq<T>, key: T -> int): (i: nat)
    requires |s| > 0
    ensures i < |s|
    ensures forall j :: 0 <= j < |s| ==> key(s[i]) <= key(s[j])
    ensures forall j :: 0 <= j < i ==> key(s[i]) < key(s[j])
  {
    if |s| == 1 then 0
    else
      var k := FirstMinBy(s[..|s| - 1], key);
      if key(s[|s| - 1]) < key(s[k]) then |s| - 1 else k
  }

  /** Python's `min(s) if s else None`, as the least element when there is one. */
  function Min(s: seq<int>): (m: int)
    requires |s| > 0
    ensures m in s
    ensures forall x :: x in s ==> m <= x
  {
    if |s| == 1 then s[0]
    else
      var rest := Min(s[1..]);
      assert forall x :: x in s ==> x == s[0] || x in s[1..];
      if s[0] <= rest then s[0] else rest
  }
}

=== FILE: text.dfy ===
/** Python's `str.strip()` with no argument, as used by the validators'
    "empty or whitespace-only" tests. */
module Text {

  /** The characters `str.isspace()` accepts, which `strip()` removes. */
  predicate IsSpace(c: char)
  {
    var n := c as int;
    || (0x09 <= n <= 0x0D)
    || (0x1C <= n <= 0x20)
    || n == 0x85 || n == 0xA0 || n == 0x1680
    || (0x2000 <= n <= 0x200A)
    || n == 0x2028 || n == 0x2029 || n == 0x202F || n == 0x205F
    || n == 0x3000
  }

  ghost predicate AllSpace(s: string)
  {
    forall i :: 0 <= i < |s| ==> IsSpace(s[i])
  }

  function TrimStart(s: string): (r: string)
    ensures |r| <= |s|
    ensures |r| > 0 ==> !IsSpace(r[0])
    ensures r == s[|s| - |r|..]
    ensures forall k :: 0 <= k < |s| - |r| ==> IsSpace(s[k])
  {
    if |s| > 0 && IsSpace(s[0]) then TrimStart(s[1..]) else s
  }

  function TrimEnd(s: string): (r: string)
    ensures |r| <= |s|
    ensures |r| > 0 ==> !IsSpace(r[|r| - 1])
    ensures r == s[..|r|]
    ensures forall k :: |r| <= k < |s| ==> IsSpace(s[k])
  {
    if |s| > 0 && IsSpace(s[|s| - 1]) then TrimEnd(s[..|s| - 1]) else s
  }

  /** Every character of `s` before `i` or from `j` on is whitespace. */
  ghost predicate SpaceOutside(s: string, i: int, j: int)
  {
    && (forall k :: 0 <= k < i && k < |s| ==> IsSpace(s[k]))
    && (forall k :: 0 <= j <= k < |s| ==> IsSpace(s[k]))
  }

  /** `s.strip()`: the infix of `s` left after removing leading and trailing
      whitespace; what remains starts and ends with a non-space. */
  function Strip(s: string): (r: string)
    ensures |r| <= |s|
    ensures |r| > 0 ==> !IsSpace(r[0]) && !IsSpace(r[|r| - 1])
    ensures exists i, j :: 0 <= i <= j <= |s| && r == s[i..j] && SpaceOutside(s, i, j)
  {
    StripInfix(s);
    TrimStart(TrimEnd(s))
  }

  /** The part `TrimStart(TrimEnd(s))` keeps lies between two whitespace runs. */
  lemma StripInfix(s: string)
    ensures var e := TrimEnd(s);
      var r := TrimStart(e);
      && 0 <= |e| - |r| <= |e| <= |s|
      && r == s[|e| - |r|..|e|]
      && SpaceOutside(s, |e| - |r|, |e|)
  {
    var e := TrimEnd(s);
    var r := TrimStart(e);
    assert forall k :: 0 <= k < |e| ==> s[k] == e[k];
  }

  /** `not s.strip()`. */
  predicate IsBlank(s: string)
  {
    Strip(s) == ""
  }

  lemma {:induction false} TrimStartEmpty(s: string)
    ensures TrimStart(s) == "" <==> AllSpace(s)
  {
    if |s| > 0 && IsSpace(s[0]) {
      TrimStartEmpty(s[1..]);
      assert AllSpace(s) <==> AllSpace(s[1..]) by {
        if AllSpace(s[1..]) {
          forall i | 0 <= i < |s| ensures IsSpace(s[i]) {
            if i > 0 { assert s[i] == s[1..][i - 1]; }
          }
        }
      }
    }
  }

  lemma {:induction false} TrimEndEmpty(s: string)
    ensures TrimEnd(s) == "" <==> AllSpace(s)
  {
    if |s| > 0 && IsSpace(s[|s| - 1]) {
      var p := s[..|s| - 1];
      TrimEndEmpty(p);
      assert AllSpace(s) <==> AllSpace(p) by {
        if AllSpace(p) {
          forall i | 0 <= i < |s| ensures IsSpace(s[i]) {
            if i < |s| - 1 { assert s[i] == p[i]; }
          }
        }
      }
    }
  }

  /** A string is blank exactly when every character of it is whitespace;
      in particular the empty string is blank. */
  lemma BlankIffAllSpace(s: string)
    ensures IsBlank(s) <==> AllSpace(s)
  {
    TrimEndEmpty(s);
    var e := TrimEnd(s);
    if e != "" {
      assert !IsSpace(e[|e| - 1]);
      assert TrimStart(e) != "" by {
        TrimStartEmpty(e);
      }
    }
  }
}

=== FILE: wrappers.dfy ===
/** Failure-carrying result types shared by the whole model.
    Python's `None` becomes `None`; a raised exception becomes `Fail`/`Err`. */
module Wrappers {

  datatype Option<+T> = None | Some(value: T)

  /** The outcome of a validator: it either returns normally or raises `error`. */
  datatype Outcome<+E> = Pass | Fail(error: E)

  /** A computation that returns `value` or raises `error`. */
  datatype Result<+T, +E> = Ok(value: T) | Err(error: E)
}
